=== FILE: README.md ===
# callbot in Dafny

callbot is a chat bot that records price "calls" on crypto coins. A member
names a coin. The bot resolves the name against its coin catalog and records
the coin's current BTC and USD prices. Later the member closes the call, which
freezes the final prices and the percent change. Members can list open calls,
look at one coin's calls and see who made the best calls.

This project models the decision logic behind those commands and proves
properties of it:

- **The coin resolver** (`CoinModel`): three search tiers, tried in order.
  1. A case-insensitive exact match on the symbol.
  2. A case-insensitive prefix match on the symbol.
  3. A case-insensitive substring match on the name or the external
     (coinmarketcap) id.

  The result is then classified as not found, one coin, or several coins.
- **The ticker cache** (`Ticker`): a process-wide price table, keyed by
  external id.
  - It is refreshed only when it is empty or older than ten seconds.
  - It is read with a fallback price of `0.0` for coins it does not list.
- **The call ledger** (`CallModel`, `CallLedger`): opening and closing calls,
  the open-call queries, and the "best calls" rankings.
- **The command layer** (`Commands`, `Callers`):
  - free-text arguments folded into a keyword dictionary;
  - caller names resolved to member ids;
  - the rule that a member has at most one open call per coin and can close
    only their own.
- **Catalog loading** for both database schemas:
  - the insert-only load by external id (`CoinTable`);
  - the update-or-insert load by name, with coins that carry their own prices
    (`PricedCatalog`, which also holds that schema's duplicate resolver,
    markets, quick calls and call prompts).
- **Helpers** (`Utils`): the percent-change formula, the arrow chosen by the
  sign of a change, and logger names.

The network fetch, the clock and the chat server are parameters. A fetched
feed is an `Option<seq<TickerRecord>>`, where `None` is a failed request. The
current time is a `real`. The server's member list is a `seq<Member>`.

Prices are `real`. Each price field of a feed record holds what `float()`
makes of it: `None` where `float()` raises.

Where the source raises an exception inside a database transaction, the
model returns an error value and changes no table. This covers a division by
a zero start price, `float()` of a missing price, and the undefined name
reached after a failed ticker fetch. In each case the transaction would be
rolled back. The ticker cache is not part of the transaction: a refresh made
before the error stays, as the class attribute holding it is not rolled back
(`Commands.MakeCall`, `Commands.CloseOwnCall`, `Commands.CloseCallCommand`,
`CoinTable.CoinTable.LoadAllCoins`).

SQL leaves the order of rows without an `order_by` unspecified, and on
PostgreSQL an `UPDATE` (closing a call, repricing a coin) can move a row in
scan order. The model chooses insertion order for such rows. What relies on
that choice: the windows of `CallModel.Get` and `CallModel.Ordered` without
ordering, and the "first row" of `CoinTable.GetByName`,
`CoinTable.GetByCmcId`, `CallModel.GetByCoinAndCaller`,
`PricedCatalog.GetByName`, `PricedCatalog.GetMarketByName` and
`PricedCatalog.SyncOne`. The model
writes an `ORDER BY ... DESC` as a stable insertion sort and chooses to rank
a `NULL` key lowest (see `Ranking.SortDesc` under "Left out").

Where the two model files disagree, the command layer follows
`callbot/models/models.py`, whose API `callbot/callbot.py` calls.

## Model

| member | source | states |
|---|---|---|
| Utils.PercentChange | callbot/utils.py:63-64 | for a non-zero start, the result times the start equals 100 times the price difference, so the result is the change in percent |
| Utils.PercentChangeRoundTrip | callbot/utils.py:63-64 | applying the computed percentage to the start price gives back the end price |
| Utils.PercentChangeOfSamePrice | callbot/utils.py:63-64 | an unchanged price is a change of zero percent |
| Utils.PercentChangeFiftyPercent | callbot/utils.py:63-64 | going from 1.0 to 1.5 is a change of exactly 50 percent |
| Utils.PercentChangeSign | callbot/utils.py:63-64 | for a positive start, the change is positive, zero or negative exactly when the end price is above, equal to or below the start |
| Utils.GetArrow | callbot/utils.py:25-31 | up arrow iff the value is positive, empty string iff it is zero, down arrow iff it is negative |
| Utils.LoggerName | callbot/utils.py:73-78 | the class's logger name alone for an empty name; otherwise that name, a dot, then the given name |
| Text.Lower | callbot/models/models.py:556-561 | lower-casing changes exactly the ASCII capitals and keeps the length (non-ASCII folding: see "Left out") |
| Text.LowerIdempotent | callbot/models/models.py:556-561 | lower-casing twice is the same as lower-casing once |
| Text.ContainsHasOccurrence | callbot/models/models.py:570-573 | a string that contains the needle has it at some position, as a `%q%` pattern means |
| Text.OccursImpliesContains | callbot/models/models.py:570-573 | an occurrence at any position makes the containment test true |
| CoinModel.SymbolIsImpliesStartsWith | callbot/models/models.py:556-568 | an exact symbol match is also a prefix match |
| CoinModel.FindByString | callbot/models/models.py:547-574 | with any exact symbol match, exactly the exact matches; else with any prefix match, exactly the prefix matches; else exactly the name-or-id substring matches, possibly none; never more rows than the catalog |
| CoinModel.FindByStringCount | callbot/models/models.py:547-574 | each catalog row appears in the result exactly as often as in the catalog when it is in the winning tier, and otherwise not at all |
| CoinModel.FindOneByString | callbot/models/models.py:589-598 | not found iff no match, the one coin iff exactly one match, several matches iff more than one |
| CoinModel.FoundIsInWinningTier | callbot/models/models.py:589-598 | a resolved coin is in the catalog and in the tier that won |
| CoinModel.UniqueSymbolMatchWins | callbot/models/models.py:547-598 | a coin that is the only exact symbol match resolves to itself, whatever prefix, name or id matches exist |
| CoinModel.UniqueFallbackMatchWins | callbot/models/models.py:547-598 | with no symbol or prefix match, the only name-or-id match resolves to itself |
| CoinModel.ExactSymbolExample | callbot/models/models.py:547-598 | "btc" resolves to Bitcoin even though "BTCX" also starts with it |
| CoinModel.PrefixExample | callbot/models/models.py:547-598 | "bt" matches the symbols "BTC" and "BTCX" by prefix only and resolves to both |
| Ticker.KeyById | callbot/models/models.py:405-409 | every entry of the built table is filed under its own record's id, and the keys are exactly the ids in the feed |
| Ticker.KeyByIdKeepsLast | callbot/models/models.py:405-409 | the entry for an id is the last record that carries that id |
| Ticker.BuildTickerDict | callbot/models/models.py:405-409 | the dictionary built by the loop is the keyed table of the feed |
| Ticker.StalenessExample | callbot/models/models.py:384-392 | the staleness test is strict: a table 10 seconds old is fresh and one 11 seconds old is stale |
| Ticker.CurrentPriceBtc | callbot/models/models.py:425-431 | the BTC price of the ticker entry for the coin's external id, or `0.0` when the id is not listed |
| Ticker.CurrentPriceUsd | callbot/models/models.py:433-440 | the USD price of the entry, or `0.0` when the id is not listed |
| Ticker.CurrentPrices | callbot/models/models.py:442-444 | both current prices, and an error exactly when either read raises |
| Ticker.PriceAfterRefresh | callbot/models/models.py:399-440 | after a refresh, a coin's price is that of the last feed record with its id, or `0.0` when no record lists it |
| Ticker.TickerCache.constructor | callbot/models/models.py:383-385 | the cache starts empty and stamped at time 0 |
| Ticker.TickerCache.UpdateGlobalTicker | callbot/models/models.py:399-411 | a successful fetch replaces the table with the keyed feed; a failed one leaves it unchanged and reports an error |
| Ticker.TickerCache.GetGlobalTicker | callbot/models/models.py:388-396 | a fresh, non-empty table is returned with the table and timestamp untouched; a stale one is refreshed and stamped with the current time, or left as it was when the fetch fails; the resulting table and timestamp are `Refreshed` of the old ones |
| Ticker.Refreshed | callbot/models/models.py:388-396 | the table and timestamp the cache holds afterwards: keyed by id when the old table was; stamped either as before or now; fresh at `now` whenever the cache was usable and the table is non-empty; the old pair when a stale table's fetch fails |
| CoinTable.GetByCmcId | callbot/models/models.py:473-477 | the first row with that external id, and none exactly when no row has it |
| CoinTable.GetByName | callbot/models/models.py:460-464 | the first row with exactly that name, and none exactly when no row has it |
| CoinTable.GetOrAdd | callbot/models/models.py:507-513 | the first row with that name when one exists; otherwise an error and no row added, as `add_from_name` raises |
| CoinTable.CoinFromTicker | callbot/models/models.py:494-505 | the new row copies name, symbol and external id from the feed record |
| CoinTable.CoinTable.AddFromTicker | callbot/models/models.py:494-505 | appends one row built from the record under the next id |
| CoinTable.CoinTable.AddIfMissing | callbot/models/models.py:602-604 | one pass of the loop: a listed external id with a row leaves the table unchanged; otherwise exactly one row built from its ticker entry is appended; either way the id has a row afterwards and no listed id is lost |
| CoinTable.CoinTable.AddMissing | callbot/models/models.py:601-604 | every listed id has a row afterwards; existing rows are kept unchanged; each new row comes from the table entry for an id that had no row; no two new rows share an id, so no duplicate external id appears |
| CoinTable.CoinTable.LoadAllCoins | callbot/models/models.py:601-604 | succeeds exactly when the cached ticker is fresh or the refresh fetch succeeds; leaves the cache holding `Refreshed` of its old table and timestamp; then adds a row, built from that table, for each id it lists that has no row; nothing is added when the refresh fails |
| Ranking.SortDesc | callbot/models/models.py:250-259 | the result is ordered best first (missing keys last) and is a permutation of the input |
| Ranking.PrefixIsTop | callbot/models/models.py:250-254 | in a list ordered best first, every element of the first `n` ranks at least as high as any element left out |
| CallModel.LivePercentChangeBtc | callbot/models/models.py:85-87 | the percent change from the call's BTC start price to the coin's current BTC price; an error exactly when the price cannot be read or the start is zero |
| CallModel.LivePercentChangeUsd | callbot/models/models.py:89-91 | the same for the USD prices |
| CallModel.CloseCall | callbot/models/models.py:336-341 | the call becomes closed and stamped; its final prices are the current prices and its totals the live percent changes; every other field is unchanged; an error exactly when a price cannot be read or a start price is zero |
| CallModel.CloseFiftyPercentExample | callbot/models/models.py:336-341 | a call opened at 1.0 and closed at 1.5 freezes a change of 50 percent in both currencies |
| CallModel.GetAllOpen | callbot/models/models.py:144-149 | exactly the open calls, restricted to the caller when the caller id is truthy |
| CallModel.OpenCalls | callbot/models/models.py:456-458 | exactly the open calls on the coin |
| CallModel.GetByCoinAndCaller | callbot/models/models.py:186-191 | the first open call by the caller on the coin, and none exactly when there is no such call |
| CallModel.GetLast | callbot/models/models.py:202-211 | an open call matching the optional coin and caller filters with the latest time made, and none exactly when no call matches |
| CallModel.Get | callbot/models/models.py:233-247 | only calls passing the closed and caller filters; at most `count` of them when `count` is truthy; sorted by frozen BTC change when ordering is asked for; all matching calls when neither offset nor count is given; exactly the window of the (ordered or ledger-order) matching calls that starts after `min(offset, m)` of the `m` matches and holds `count` of them when `count` is truthy and that many remain, all remaining ones otherwise |
| CallModel.Page | callbot/models/models.py:242-247 | `offset` then `limit`: the slice that skips `min(offset, n)` of the `n` rows and keeps `count` of the rest when `count` is truthy and smaller, all of them otherwise |
| CallModel.Ordered | callbot/models/models.py:235-242 | the matching calls, a permutation of them sorted by frozen BTC change when ordering is asked for, and in ledger order otherwise |
| CallModel.GetWholeList | callbot/models/models.py:233-247 | without an offset, and with a count that is zero or covers every match, the query returns all matching calls in query order |
| CallModel.Top | callbot/models/models.py:250-254 | the best `count` calls of the pool, best first, and no call left out ranks above one kept |
| CallModel.GetBestClosed | callbot/models/models.py:257-259 | only the caller's closed calls, best frozen BTC change first; the best `count` of them when `count` is truthy, otherwise all of them |
| CallModel.GetBestOpen | callbot/models/models.py:250-254 | the best `count` open calls by live BTC change, best first; an error exactly when some matching call's live change raises |
| CallModel.GetBest | callbot/models/models.py:224-230 | the closed ranking when `closed` is set, the open ranking otherwise |
| CallModel.BestClosedExample | callbot/models/models.py:257-259 | closed calls frozen at 10, -5 and 20 percent rank 20, 10, -5 |
| CallLedger.NewCall | callbot/models/models.py:115-130 | a new call is open, made now by the author in the channel, and starts at the given prices with no final prices and no frozen changes in either currency |
| CallLedger.Ledger.Make | callbot/models/models.py:115-130 | appends a call at the coin's current prices under the next id; when a price cannot be read, nothing is added and an error is returned |
| CallLedger.Ledger.Close | callbot/models/models.py:336-341 | only the call at that position changes, and it becomes its closed form; on an error no call changes; every closed call stays stamped |
| Callers.CallerIdFor | callbot/models/models.py:67-83 | an empty token and "mine" give the author; "all" gives no caller; otherwise the id of the first member whose lower-cased name or truthy nick equals the lower-cased token, or else the author |
| Callers.CallerIdNoneOnlyForAll | callbot/models/models.py:67-83 | no caller results exactly for "all" in any letter case; any other result is the author or some member's id |
| Callers.GetCallerIdFromString | callbot/models/models.py:67-83 | the member loop with early returns computes the caller id the rule above defines |
| Commands.Defaults | callbot/callbot.py:98-102 | the starting dictionary holds exactly prices in BTC, the author as caller, and open calls |
| Commands.GetKwargsFromArgs | callbot/callbot.py:97-123 | the loop's result is the defaults overridden by the keyword overrides, then every token applied in order |
| Commands.ApplyArgEffect | callbot/callbot.py:105-121 | a unit token sets the price unit to its lower-case form; "open" or "closed" sets the state filter; any other token sets the caller filter; each key changes only through its own kind of token |
| Commands.LastUnitTokenWins | callbot/callbot.py:105-108 | the last "btc"/"usd" token in any letter case decides the price unit; without one, the starting value stays |
| Commands.LastStateTokenWins | callbot/callbot.py:110-115 | the last "open"/"closed" token decides whether closed calls are shown; without one, the starting value stays |
| Commands.LastCallerTokenWins | callbot/callbot.py:117-118 | the last other token decides the caller filter through the caller rule; without one, the starting value stays |
| Commands.ExtraKeysAreAll | callbot/callbot.py:117-121 | the only keys a token adds are spellings of "all", each stored under itself |
| Commands.ParseExample | callbot/callbot.py:97-123 | the tokens "USD" and "closed" give dollar prices, closed calls and the author as caller |
| Commands.ResolutionError | callbot/models/models.py:589-598 | no match is reported as not found, and several matches as ambiguous with those matches |
| Commands.MakeCall | callbot/callbot.py:24-41 | an unresolved coin, or an open call the author already holds on it, changes no call and reports why, and the cache is untouched; otherwise the cache becomes `Refreshed` of its old table and timestamp, and the command succeeds exactly when the ticker is fresh or its refresh succeeds and both current prices of the coin can be read, and then appends exactly the new open call by the author on the resolved coin, priced at that refreshed table's current prices and made now; at most one open call per coin and caller is preserved |
| Commands.CloseOwnCall | callbot/models/models.py:538-544 | on a resolved coin: without an open call by the author, an error and nothing changes, the cache included; otherwise the cache becomes `Refreshed`, and only that call can change, to its `CloseCall` form at the refreshed prices, succeeding exactly when the ticker is usable and the close succeeds |
| Commands.CloseCallCommand | callbot/callbot.py:68-76 | the only call that can change is the author's first open call on the resolved coin, and it becomes its closed form; without such a call, or with an unresolved coin, nothing changes, the cache included; with such a call the cache becomes `Refreshed` of its old table and timestamp, and the command succeeds exactly when the ticker is usable and closing the call at that table's current prices succeeds, and otherwise reports the ticker or price error; the one-open-call rule is preserved |
| Commands.ShowCall | callbot/callbot.py:43-54 | an unresolved coin is reported; with a truthy caller, that caller's open call on the coin if there is one; otherwise exactly the open calls on the coin |
| PricedCatalog.FindByString | callbot/models/call_models.py:229-257 | the result is drawn from the catalog and is no larger than it |
| PricedCatalog.SameTiersAsOtherSchema | callbot/models/call_models.py:239-257 | this schema's resolver returns the same rows, in the same order, as the other schema's resolver over the same searchable columns |
| PricedCatalog.GetByName | callbot/models/call_models.py:131-135 | the first row with exactly that name, and none exactly when no row has it |
| PricedCatalog.SyncOne | callbot/models/call_models.py:269-274 | a known name updates its first row's prices to the record's and leaves every other row equal to what it was; an unknown name appends a row built from the record; no row loses its name, symbol or external id |
| PricedCatalog.Batch | callbot/models/call_models.py:266-267 | the first `count` records, or all of them when `count` is falsy |
| PricedCatalog.SyncKeepsRows | callbot/models/call_models.py:259-274 | a sync keeps every row with its name, symbol and external id, and adds at most one row per record |
| PricedCatalog.SyncCoversNames | callbot/models/call_models.py:269-274 | after a sync, every processed record's name has a row |
| PricedCatalog.SyncWithKnownNamesInsertsNothing | callbot/models/call_models.py:269-274 | when every processed name already has a row, no row is added |
| PricedCatalog.GetMarketByName | callbot/models/call_models.py:364-366 | the position of the first market with that name, and none exactly when no market has it |
| PricedCatalog.AddMarket | callbot/models/call_models.py:362-372 | with a market of that name, the first such market is returned and the table is unchanged; otherwise exactly one market, with that name and url under the next id, is appended and returned |
| PricedCatalog.AddMarketIdempotent | callbot/models/call_models.py:362-372 | asking again for the same name, with any url, changes nothing and returns the same market |
| PricedCatalog.GetAllOpenCallsAsWritten | callbot/models/call_models.py:97-101 | the query as written returns the empty list for every table |
| PricedCatalog.GetAllOpenCalls | callbot/models/call_models.py:97-101 | exactly the calls that are not closed |
| PricedCatalog.OpenCallMissedAsWritten | callbot/models/call_models.py:97-101 | in every table, each open call is missed by the query as written and found by the intended one, so the two differ exactly when the table holds an open call |
| PricedCatalog.PromptsForm | callbot/models/call_models.py:77-81 | the call form asks for the coin name, risk and reward, in that order; only the coin name is required, and only its prompt carries the "[Required] " tag |
| PricedCatalog.MakeCallPrompt | callbot/models/call_models.py:39-46 | a required prompt is shown with "[Required] " in front; a non-required one is shown unchanged; the question always ends the shown prompt |
| PricedCatalog.Database.AddFromTicker | callbot/models/call_models.py:159-190 | appends a row copying name, symbol, external id and both parsed prices, with an unparseable price stored as `None` |
| PricedCatalog.Database.Update | callbot/models/call_models.py:200-227 | both prices of that row are replaced by the record's parsed prices; its name, symbol and external id and every other row are unchanged |
| PricedCatalog.Database.GetOrAdd | callbot/models/call_models.py:143-198 | returns the row with that name without a change; otherwise inserts the first fetched record; a failed fetch or an empty list adds nothing |
| PricedCatalog.Database.LoadAllCoins | callbot/models/call_models.py:259-275 | on a failed fetch nothing changes; otherwise the catalog becomes the in-order sync of the batch |
| PricedCatalog.Database.SyncStep | callbot/models/call_models.py:269-274 | one pass of the loop: the catalog becomes `SyncOne` of the catalog and the record (update the first row with the record's name, or insert a row) |
| PricedCatalog.Database.SyncAll | callbot/models/call_models.py:268-274 | the loop: the catalog becomes the in-order sync of all the records |
| PricedCatalog.Database.MarketGetOrAdd | callbot/models/call_models.py:362-372 | the new market table and the market returned are those of the get-or-add rule |
| PricedCatalog.Database.MakeQuickCall | callbot/models/call_models.py:83-95 | appends an open call on the coin's id at the coin's cached prices |

## Left out

- All Discord presentation. This covers every `*_embed` and `get_embed` method, `respond`, and the `get_user` lookups. It also covers the `show_last_call`, `list_all_calls` and `show_best` commands, which only wrap the modelled queries (`GetLast`, `GetAllOpen`, `GetBest`) in embeds.
- `fetch_url` and `get_cmc_global_ticker` (network I/O). A fetch result is a parameter, `None` for a failed request.
- The model treats every fetch as awaited. In the source `fetch_url` is a coroutine function (callbot/utils.py:38), but callbot/models/models.py:401 and callbot/models/call_models.py:146, 206 and 261 call it without `await`. As written, the returned coroutine object is truthy and has no `.json()`, so those calls would raise.
- The HTML scraping of `load_markets` and the `tickers_by_symbol` table that only it uses. These are network I/O and parsing.
- Database sessions and engines (`callbot/models/meta.py`): tables are sequences held by objects. A raised exception is an error result that changes no table, as the rolled-back transaction leaves it; a ticker refresh made before the error stays in the cache.
- Floating-point rounding and `float()` string parsing. Prices are exact `real` values, and a parse result is an `Option<real>`.
- The `%` and `_` wildcards of SQL `ilike`. Queries are taken to contain neither.
- The clock. `now` is one parameter per command. The source reads `time.time()` twice in `get_global_ticker` and reads the ticker once per price, whereas the model reads one ticker snapshot per command.
- Ticker.TickerCache.UpdateGlobalTicker: the model reports a failed fetch as an error value. The source fails there on the undefined name `to_dict` (callbot/models/models.py:403).
- CallModel.CloseCall: keeps the final USD price on the call as the in-memory object does. The duplicated `final_price_btc` column (callbot/models/models.py:53-54) means the source never persists it.
- Ranking.SortDesc: ranks a missing (`NULL`) key below every present one. This is the model's choice: the source runs on PostgreSQL (psycopg2, setup.py:23), which puts `NULL`s first under `DESC`. Every call `get_best_closed` ranks is closed, and closing stamps the frozen change, so no `NULL` key reaches that ranking.
- CallModel.GetBestClosed: inherits the `NULL`-lowest choice of `Ranking.SortDesc`. That choice only matters for a closed call without a frozen change, which `CallModel.CloseCall` never produces.
- Text.Lower: folds only the ASCII capitals A to Z. PostgreSQL's `lower`/`ilike` and Python's `str.lower` also fold non-ASCII letters. So the resolver (`CoinModel.FindByString`), `Callers.CallerIdFor` and `Commands.ApplyArg` are modelled only for names whose non-ASCII letters are already lower case.
- CoinTable.CoinTable.AddMissing: chooses the missing ids in an unspecified order. The source walks the ticker dictionary in feed order (callbot/models/models.py:602), so the model does not determine the order or the ids of the new rows. It does determine which external ids get rows.
- `timestamp_closed` is never set by the source and is not modelled.
- `add_from_name` of callbot/models/models.py is not modelled on its own: it reads `self` inside a class method (line 480), so it raises before doing anything. `CoinTable.GetOrAdd` models the only path that reaches it as an error with no row added.
- `Coin.get_by_symbol` in both schemas is not modelled: no modelled operation calls it.
- `Coin.update` without a record (callbot/models/call_models.py:204-210) fetches its own record over the network, so it is not modelled. `PricedCatalog.Database.Update` always receives a record, as `load_all_coins` passes one.
- PricedCatalog.Database.LoadAllCoins: takes `count` as a natural number, where 0 stands for both 0 and `None`. A negative count, which Python would slice from the end, is not modelled.
- PricedCatalog.FindByString: its own contract states only containment and size. The tier behaviour is stated by `PricedCatalog.SameTiersAsOtherSchema` against `CoinModel.FindByString`.
- `CallPrompt.prompt_for_answer` reads standard input and is not modelled.
- Commands.MakeCall: in the already-open branch, the embed shown reads the ticker and may refresh it. That presentation read is not modelled.
- Commands.ShowCall: the per-call percent changes of the embed are not modelled. That code uses names that are undefined at callbot/models/models.py:526 and 530, and `get_embed` uses the undefined `percent_change_usd` at callbot/models/models.py:315.
- Commands.LastUnitTokenWins: requires the author's and every member's chat ids to be non-empty, as chat ids are. With an empty id, a token naming that member is also stored under its own key.
- Commands.LastStateTokenWins: requires non-empty chat ids, for the same reason.
- Commands.LastCallerTokenWins: requires non-empty chat ids, for the same reason.
- Commands.ExtraKeysAreAll: requires non-empty chat ids, for the same reason.
- Commands.ApplyArgEffect: requires non-empty chat ids, for the same reason.
- The scripts, configuration loading, `setup.py`, the bot's event-loop wiring and the random test helpers are process plumbing and are not modelled.

## Findings

| source | as written | input that shows it | evidently intended | confidence | as-written member | corrected member |
|---|---|---|---|---|---|---|
| callbot/models/call_models.py:97-101 | `filter(cls.closed is False)` applies Python's identity test to the column object, which gives `False`, so the query selects no row | any table holding a call with `closed` false | the calls whose `closed` column is false | high; not executed | PricedCatalog.GetAllOpenCallsAsWritten | PricedCatalog.GetAllOpenCalls |

=== FILE: call_model.dfy ===
/** Calls of callbot/models/models.py: the `Call` row, the live and frozen
    percent changes, `Call.close`, and the read-only queries
    (`get_all_open`, `get_by_coin_and_caller`, `get_last`, `get`,
    `get_best_open`, `get_best_closed`, `Coin.open_calls`). */
module CallModel {
  import opened Wrappers
  import opened Seqs
  import opened Utils
  import opened CoinModel
  import opened Ticker
  import opened Ranking

  /** A row of the `calls` table, with its coin joined in. */
  datatype Call = Call(
    id: nat,
    coin: Coin,
    channelId: string,
    callerId: string,
    startPriceBtc: real,
    startPriceUsd: real,
    finalPriceBtc: Option<real>,
    finalPriceUsd: Option<real>,
    totalPercentChangeBtc: Option<real>,
    totalPercentChangeUsd: Option<real>,
    closed: bool,
    timestampMade: real)

  /** The errors the source raises while reading prices: `float()` of a
      missing price, and a division by a zero start price. */
  datatype PriceError = UnreadablePrice | ZeroStartPrice

  /** `Call.percent_change_btc`: the change from the call's start price to
      the coin's current price; `None` where the source raises. */
  function LivePercentChangeBtc(c: Call, t: Table): (r: Option<real>)
    ensures r.Some? <==> CurrentPriceBtc(t, c.coin.cmcId).Some? && c.startPriceBtc != 0.0
    ensures r.Some? ==> r.value == PercentChange(c.startPriceBtc, CurrentPriceBtc(t, c.coin.cmcId).value)
  {
    match CurrentPriceBtc(t, c.coin.cmcId)
    case None => None
    case Some(price) =>
      if c.startPriceBtc == 0.0 then None else Some(PercentChange(c.startPriceBtc, price))
  }

  /** `Call.percent_change_usd`, the same for the dollar prices. */
  function LivePercentChangeUsd(c: Call, t: Table): (r: Option<real>)
    ensures r.Some? <==> CurrentPriceUsd(t, c.coin.cmcId).Some? && c.startPriceUsd != 0.0
    ensures r.Some? ==> r.value == PercentChange(c.startPriceUsd, CurrentPriceUsd(t, c.coin.cmcId).value)
  {
    match CurrentPriceUsd(t, c.coin.cmcId)
    case None => None
    case Some(price) =>
      if c.startPriceUsd == 0.0 then None else Some(PercentChange(c.startPriceUsd, price))
  }

  /** A closed call carries its final prices and frozen percent changes. */
  predicate Stamped(c: Call) {
    c.finalPriceBtc.Some? && c.finalPriceUsd.Some? &&
    c.totalPercentChangeBtc.Some? && c.totalPercentChangeUsd.Some?
  }

  /** `Call.close` on one row: mark it closed, stamp the current prices as
      final and freeze the percent changes; an error (and no change) where
      the source raises. */
  function CloseCall(c: Call, t: Table): (r: Result<Call, PriceError>)
    ensures r.Ok? <==> CurrentPrices(t, c.coin.cmcId).Some? && c.startPriceBtc != 0.0 && c.startPriceUsd != 0.0
    ensures r.Err? && CurrentPrices(t, c.coin.cmcId).None? ==> r.error == UnreadablePrice
    ensures r.Ok? ==>
      && r.value.closed && Stamped(r.value)
      && r.value.finalPriceBtc == CurrentPriceBtc(t, c.coin.cmcId)
      && r.value.finalPriceUsd == CurrentPriceUsd(t, c.coin.cmcId)
      && r.value.totalPercentChangeBtc == LivePercentChangeBtc(c, t)
      && r.value.totalPercentChangeUsd == LivePercentChangeUsd(c, t)
      && r.value.(closed := c.closed, finalPriceBtc := c.finalPriceBtc, finalPriceUsd := c.finalPriceUsd,
                  totalPercentChangeBtc := c.totalPercentChangeBtc,
                  totalPercentChangeUsd := c.totalPercentChangeUsd) == c
  {
    match CurrentPrices(t, c.coin.cmcId)
    case None => Err(UnreadablePrice)
    case Some(now) =>
      if c.startPriceBtc == 0.0 || c.startPriceUsd == 0.0 then Err(ZeroStartPrice)
      else Ok(c.(closed := true,
                 finalPriceBtc := Some(now.btc),
                 finalPriceUsd := Some(now.usd),
                 totalPercentChangeBtc := Some(PercentChange(c.startPriceBtc, now.btc)),
                 totalPercentChangeUsd := Some(PercentChange(c.startPriceUsd, now.usd))))
  }

  /** Opening at 1.0 and closing when the coin is listed at 1.5 freezes a
      change of fifty percent. */
  lemma CloseFiftyPercentExample(c: Call, t: Table)
    requires c.startPriceBtc == 1.0 && c.startPriceUsd == 1.0
    requires c.coin.cmcId in t && t[c.coin.cmcId].priceBtc == Some(1.5) && t[c.coin.cmcId].priceUsd == Some(1.5)
    ensures CloseCall(c, t).Ok?
    ensures CloseCall(c, t).value.totalPercentChangeBtc == Some(50.0)
    ensures CloseCall(c, t).value.totalPercentChangeUsd == Some(50.0)
  {
    PercentChangeFiftyPercent();
  }

  /** The caller filter of the queries: applied only when `caller_id` is
      truthy. */
  predicate CallerMatches(callerId: Option<string>, c: Call) {
    !Truthy(callerId) || c.callerId == callerId.value
  }

  /** `Call.get_all_open`: the open calls, of one caller when one is given,
      in ledger order. */
  function GetAllOpen(calls: seq<Call>, callerId: Option<string>): (r: seq<Call>)
    ensures |r| <= |calls|
    ensures forall c :: c in r <==> c in calls && !c.closed && CallerMatches(callerId, c)
  {
    Select(calls, (c: Call) => !c.closed && CallerMatches(callerId, c))
  }

  /** `Coin.open_calls` (and `Call.get_by_coin`): the open calls on a coin. */
  function OpenCalls(calls: seq<Call>, coin: Coin): (r: seq<Call>)
    ensures |r| <= |calls|
    ensures forall c :: c in r <==> c in calls && c.coin.id == coin.id && !c.closed
  {
    Select(calls, (c: Call) => c.coin.id == coin.id && !c.closed)
  }

  /** `c` is an open call by `callerId` on `coin`. */
  predicate OpenBy(coin: Coin, callerId: string, c: Call) {
    c.coin.id == coin.id && c.callerId == callerId && !c.closed
  }

  /** `Call.get_by_coin_and_caller`: the position of the first open call by
      the caller on the coin (the position stands for the ORM object). */
  function GetByCoinAndCaller(calls: seq<Call>, coin: Coin, callerId: string): (r: Option<nat>)
    ensures r.None? <==> forall i :: 0 <= i < |calls| ==> !OpenBy(coin, callerId, calls[i])
    ensures r.Some? ==> r.value < |calls| && OpenBy(coin, callerId, calls[r.value])
    ensures r.Some? ==> forall j :: 0 <= j < r.value ==> !OpenBy(coin, callerId, calls[j])
  {
    FirstIndex(calls, c => OpenBy(coin, callerId, c))
  }

  /** The latest call of a list by `timestamp_made`; the earliest of equals. */
  function Latest(xs: seq<Call>): (r: Option<Call>)
    ensures r.None? <==> xs == []
    ensures r.Some? ==> r.value in xs
    ensures r.Some? ==> forall c :: c in xs ==> c.timestampMade <= r.value.timestampMade
  {
    if xs == [] then None
    else
      match Latest(xs[1..])
      case None => Some(xs[0])
      case Some(later) =>
        if xs[0].timestampMade >= later.timestampMade then Some(xs[0]) else Some(later)
  }

  /** The filters of `get_last`: open, on the coin if one is given, by the
      caller if one is truthy. */
  predicate LastFilter(coin: Option<Coin>, callerId: Option<string>, c: Call) {
    !c.closed && (coin.Some? ==> c.coin.id == coin.value.id) && CallerMatches(callerId, c)
  }

  /** `Call.get_last`: the most recently made matching open call, if any. */
  function GetLast(calls: seq<Call>, coin: Option<Coin>, callerId: Option<string>): (r: Option<Call>)
    ensures r.None? <==> forall c :: c in calls ==> !LastFilter(coin, callerId, c)
    ensures r.Some? ==> r.value in calls && LastFilter(coin, callerId, r.value)
    ensures r.Some? ==> forall c :: c in calls && LastFilter(coin, callerId, c) ==>
                                    c.timestampMade <= r.value.timestampMade
  {
    var matching := Select(calls, c => LastFilter(coin, callerId, c));
    assert matching == [] ==> forall c :: c in calls ==> !LastFilter(coin, callerId, c) by {
      if matching == [] {
        forall c | c in calls ensures !LastFilter(coin, callerId, c) {
          assert c !in matching;
        }
      }
    }
    Latest(matching)
  }

  /** The open/closed filter of `Call.get`, applied when `closed` is given. */
  predicate ClosedMatches(closed: Option<bool>, c: Call) {
    closed.None? || c.closed == closed.value
  }

  /** The frozen BTC change, the `order_by` key of `get_best_closed`. */
  function TotalKey(c: Call): Option<real> {
    c.totalPercentChangeBtc
  }

  /** The calls `Call.get` filters before ordering and slicing. */
  function Matching(calls: seq<Call>, callerId: Option<string>, closed: Option<bool>): (r: seq<Call>)
    ensures forall c :: c in r <==> c in calls && ClosedMatches(closed, c) && CallerMatches(callerId, c)
  {
    Select(calls, c => ClosedMatches(closed, c) && CallerMatches(callerId, c))
  }

  /** How many of `n` rows `offset(offset)` skips: all of them when the
      offset runs past the end. */
  function Skipped(n: nat, offset: nat): nat {
    if offset < n then offset else n
  }

  /** How many rows `limit(count)` keeps of the `n - Skipped(n, offset)`
      left: `count` when that is truthy and fewer, all of them otherwise. */
  function Kept(n: nat, offset: nat, count: nat): nat {
    var left := n - Skipped(n, offset);
    if count > 0 && count < left then count else left
  }

  /** `offset(offset)` then `limit(count)` of a query: skip `offset` rows
      and keep at most `count`, where zero (falsy) skips or limits nothing. */
  function Page(xs: seq<Call>, offset: nat, count: nat): (r: seq<Call>)
    ensures r == xs[Skipped(|xs|, offset)..Skipped(|xs|, offset) + Kept(|xs|, offset, count)]
  {
    var shifted := if offset <= |xs| then xs[offset..] else [];
    if count > 0 then Take(shifted, count) else shifted
  }

  /** The filtered calls, ordered by frozen BTC change descending when
      `orderByTotal` is set and in ledger order otherwise. */
  function Ordered(calls: seq<Call>, callerId: Option<string>, closed: Option<bool>, orderByTotal: bool): (r: seq<Call>)
    ensures |r| == |Matching(calls, callerId, closed)|
    ensures multiset(r) == multiset(Matching(calls, callerId, closed))
    ensures forall c :: c in r ==> c in Matching(calls, callerId, closed)
    ensures orderByTotal ==> SortedDesc(r, TotalKey)
    ensures !orderByTotal ==> r == Matching(calls, callerId, closed)
  {
    var matching := Matching(calls, callerId, closed);
    var r := if orderByTotal then SortDesc(matching, TotalKey) else matching;
    assert forall c :: c in r ==> c in matching by {
      forall c | c in r ensures c in matching {
        assert c in multiset(r);
      }
    }
    r
  }

  /** Every call on a page of the ordered matches passes the filters. */
  lemma PageMatches(calls: seq<Call>, callerId: Option<string>, closed: Option<bool>, orderByTotal: bool,
                    offset: nat, count: nat)
    ensures forall c :: c in Page(Ordered(calls, callerId, closed, orderByTotal), offset, count) ==>
              c in calls && ClosedMatches(closed, c) && CallerMatches(callerId, c)
  {
    var ordered := Ordered(calls, callerId, closed, orderByTotal);
    var r := Page(ordered, offset, count);
    var skip := Skipped(|ordered|, offset);
    forall c | c in r ensures c in calls && ClosedMatches(closed, c) && CallerMatches(callerId, c) {
      var k :| 0 <= k < |r| && r[k] == c;
      assert ordered[skip + k] == c;
      assert c in Matching(calls, callerId, closed);
    }
  }

  /** A page of the matches ordered best first is ordered best first. */
  lemma PageSorted(calls: seq<Call>, callerId: Option<string>, closed: Option<bool>, offset: nat, count: nat)
    ensures SortedDesc(Page(Ordered(calls, callerId, closed, true), offset, count), TotalKey)
  {
    var ordered := Ordered(calls, callerId, closed, true);
    var skip := Skipped(|ordered|, offset);
    SortedSlice(ordered, TotalKey, skip, skip + Kept(|ordered|, offset, count));
  }

  /** Where a page of the ordered matches lies and how long it is. */
  lemma PageWindow(calls: seq<Call>, callerId: Option<string>, closed: Option<bool>, orderByTotal: bool,
                   offset: nat, count: nat)
    ensures var m := |Matching(calls, callerId, closed)|;
      var p := Page(Ordered(calls, callerId, closed, orderByTotal), offset, count);
      && |p| == Kept(m, offset, count)
      && p == Ordered(calls, callerId, closed, orderByTotal)[Skipped(m, offset)..Skipped(m, offset) + Kept(m, offset, count)]
      && (count > 0 ==> |p| <= count)
      && (offset == 0 && count == 0 ==> multiset(p) == multiset(Matching(calls, callerId, closed)))
  {
    var ordered := Ordered(calls, callerId, closed, orderByTotal);
    assert offset == 0 && count == 0 ==> Page(ordered, offset, count) == ordered;
  }

  /** `Call.get`: filter, optionally order by the frozen BTC change
      descending, skip `offset` rows and keep at most `count`; an offset or
      count of zero (falsy) does nothing. */
  function Get(calls: seq<Call>, callerId: Option<string>, offset: nat, closed: Option<bool>,
               count: nat, orderByTotal: bool): (r: seq<Call>)
    ensures forall c :: c in r ==> c in calls && ClosedMatches(closed, c) && CallerMatches(callerId, c)
    ensures count > 0 ==> |r| <= count
    ensures orderByTotal ==> SortedDesc(r, TotalKey)
    ensures offset == 0 && count == 0 ==> multiset(r) == multiset(Matching(calls, callerId, closed))
    ensures |r| == Kept(|Matching(calls, callerId, closed)|, offset, count)
    ensures var m := |Matching(calls, callerId, closed)|;
      r == Ordered(calls, callerId, closed, orderByTotal)[Skipped(m, offset)..Skipped(m, offset) + Kept(m, offset, count)]
  {
    PageMatches(calls, callerId, closed, orderByTotal, offset, count);
    PageWindow(calls, callerId, closed, orderByTotal, offset, count);
    assert orderByTotal ==> SortedDesc(Page(Ordered(calls, callerId, closed, orderByTotal), offset, count), TotalKey) by {
      if orderByTotal {
        PageSorted(calls, callerId, closed, offset, count);
      }
    }
    Page(Ordered(calls, callerId, closed, orderByTotal), offset, count)
  }

  /** What `get_best_*` promises: ordered best first, drawn from `pool`, and
      no call left out ranks above one that was kept. */
  ghost predicate BestOf(r: seq<Call>, pool: seq<Call>, key: Call -> Option<real>, count: nat) {
    && SortedDesc(r, key)
    && multiset(r) <= multiset(pool)
    && |r| == (if count < |pool| then count else |pool|)
    && forall y :: y in multiset(pool) - multiset(r) ==>
         forall i :: 0 <= i < |r| ==> AtLeast(key(r[i]), key(y))
  }

  /** The first `count` of the calls ordered best first. */
  function Top(pool: seq<Call>, key: Call -> Option<real>, count: nat): (r: seq<Call>)
    ensures BestOf(r, pool, key, count)
  {
    var sorted := SortDesc(pool, key);
    var n := if count < |sorted| then count else |sorted|;
    var r := sorted[..n];
    assert sorted == r + sorted[n..];
    assert multiset(sorted) == multiset(r) + multiset(sorted[n..]);
    assert forall y :: y in multiset(pool) - multiset(r) ==>
             forall i :: 0 <= i < |r| ==> AtLeast(key(r[i]), key(y)) by {
      forall y | y in multiset(pool) - multiset(r)
        ensures forall i :: 0 <= i < |r| ==> AtLeast(key(r[i]), key(y))
      {
        PrefixIsTop(sorted, key, n, y);
      }
    }
    r
  }

  /** `Call.get_best_closed`: closed calls (of the caller when one is
      given) by frozen BTC change, best first; limited to `count` only when
      `count` is truthy. */
  function GetBestClosed(calls: seq<Call>, callerId: Option<string>, count: nat): (r: seq<Call>)
    ensures forall c :: c in r ==> c in calls && c.closed && CallerMatches(callerId, c)
    ensures count > 0 ==> BestOf(r, Matching(calls, callerId, Some(true)), TotalKey, count)
    ensures count == 0 ==> SortedDesc(r, TotalKey)
    ensures count == 0 ==> multiset(r) == multiset(Matching(calls, callerId, Some(true)))
  {
    var r := Get(calls, callerId, 0, Some(true), count, true);
    var pool := Matching(calls, callerId, Some(true));
    assert count > 0 ==> r == Top(pool, TotalKey, count);
    r
  }

  /** The live BTC change as a ranking key (only used once every key is
      known to exist). */
  function LiveKey(t: Table): Call -> Option<real> {
    c => LivePercentChangeBtc(c, t)
  }

  /** `Call.get_best_open`: the open calls (of the caller when one is
      given) sorted by live BTC change, best first, and cut to `count`.
      `None` when computing some call's change raises. */
  function GetBestOpen(calls: seq<Call>, callerId: Option<string>, count: nat, t: Table): (r: Option<seq<Call>>)
    ensures r.None? <==> exists c :: c in Matching(calls, callerId, Some(false)) && LivePercentChangeBtc(c, t).None?
    ensures r.Some? ==> forall c :: c in r.value ==> c in calls && !c.closed && CallerMatches(callerId, c)
    ensures r.Some? ==> BestOf(r.value, Matching(calls, callerId, Some(false)), LiveKey(t), count)
  {
    var open := Get(calls, callerId, 0, Some(false), 0, false);
    var pool := Matching(calls, callerId, Some(false));
    assert open == pool;
    if exists c :: c in open && LivePercentChangeBtc(c, t).None? then None
    else
      var r := Top(open, LiveKey(t), count);
      assert forall c :: c in r ==> c in open by {
        forall c | c in r ensures c in open {
          assert c in multiset(r);
        }
      }
      Some(r)
  }

  /** `Call.get_best`: dispatch on `closed`. */
  function GetBest(calls: seq<Call>, callerId: Option<string>, closed: bool, count: nat, t: Table): (r: Option<seq<Call>>)
    ensures closed ==> r == Some(GetBestClosed(calls, callerId, count))
    ensures !closed ==> r == GetBestOpen(calls, callerId, count, t)
  {
    if closed then Some(GetBestClosed(calls, callerId, count)) else GetBestOpen(calls, callerId, count, t)
  }

  /** Three closed calls frozen at 10, -5 and 20 percent rank 20, 10, -5. */
  lemma BestClosedExample(a: Call, b: Call, c: Call)
    requires a.closed && b.closed && c.closed
    requires a.totalPercentChangeBtc == Some(10.0)
    requires b.totalPercentChangeBtc == Some(-5.0)
    requires c.totalPercentChangeBtc == Some(20.0)
    ensures GetBestClosed([a, b, c], None, 5) == [c, a, b]
  {
    ThreeClosedPage(a, b, c);
  }

  /** The `Call.get` query behind `BestClosedExample`. */
  lemma ThreeClosedPage(a: Call, b: Call, c: Call)
    requires a.closed && b.closed && c.closed
    requires a.totalPercentChangeBtc == Some(10.0)
    requires b.totalPercentChangeBtc == Some(-5.0)
    requires c.totalPercentChangeBtc == Some(20.0)
    ensures Get([a, b, c], None, 0, Some(true), 5, true) == [c, a, b]
  {
    ThreeClosedOrdered(a, b, c);
    GetWholeList([a, b, c], None, Some(true), 5, true);
  }

  /** Without an offset and with a count that is zero or covers every
      match, `Call.get` returns all the matches in query order. */
  lemma GetWholeList(calls: seq<Call>, callerId: Option<string>, closed: Option<bool>,
                     count: nat, orderByTotal: bool)
    requires count == 0 || |Matching(calls, callerId, closed)| <= count
    ensures Get(calls, callerId, 0, closed, count, orderByTotal) == Ordered(calls, callerId, closed, orderByTotal)
  {
    var ordered := Ordered(calls, callerId, closed, orderByTotal);
    assert ordered[0..|ordered|] == ordered;
  }

  /** The ordering step of `BestClosedExample`. */
  lemma ThreeClosedOrdered(a: Call, b: Call, c: Call)
    requires a.closed && b.closed && c.closed
    requires a.totalPercentChangeBtc == Some(10.0)
    requires b.totalPercentChangeBtc == Some(-5.0)
    requires c.totalPercentChangeBtc == Some(20.0)
    ensures Matching([a, b, c], None, Some(true)) == [a, b, c]
    ensures SortDesc([a, b, c], TotalKey) == [c, a, b]
  {
    ThreeClosedMatch(a, b, c);
    TwoSorted(b, c);
    InsertBetween(a, b, c);
    assert [a, b, c][1..] == [b, c];
  }

  /** All three closed calls pass the closed filter, in ledger order. */
  lemma ThreeClosedMatch(a: Call, b: Call, c: Call)
    requires a.closed && b.closed && c.closed
    ensures Matching([a, b, c], None, Some(true)) == [a, b, c]
  {
    var xs := [a, b, c];
    var keep := (x: Call) => ClosedMatches(Some(true), x) && CallerMatches(None, x);
    assert xs[1..] == [b, c] && xs[1..][1..] == [c] && xs[1..][1..][1..] == [];
    assert Select([c], keep) == [c];
    assert Select([b, c], keep) == [b, c];
  }

  /** A call frozen at -5 percent ranks below one frozen at 20. */
  lemma TwoSorted(b: Call, c: Call)
    requires b.totalPercentChangeBtc == Some(-5.0)
    requires c.totalPercentChangeBtc == Some(20.0)
    ensures SortDesc([b, c], TotalKey) == [c, b]
  {
    assert [b, c][1..] == [c] && [c][1..] == [];
    assert SortDesc([c], TotalKey) == [c];
    assert Insert(b, [c], TotalKey) == [c, b];
  }

  /** A call frozen at 10 percent goes between 20 and -5. */
  lemma InsertBetween(a: Call, b: Call, c: Call)
    requires a.totalPercentChangeBtc == Some(10.0)
    requires b.totalPercentChangeBtc == Some(-5.0)
    requires c.totalPercentChangeBtc == Some(20.0)
    ensures SortedDesc([c, b], TotalKey)
    ensures Insert(a, [c, b], TotalKey) == [c, a, b]
  {
    assert [c, b][1..] == [b];
    assert Insert(a, [b], TotalKey) == [a, b];
  }
}

=== FILE: callers.dfy ===
/** `Call.get_caller_id_from_string` of callbot/models/models.py: turn a
    free-text caller token into a member id, `None` for "all". The server's
    member list and the message author are parameters. */
module Callers {
  import opened Wrappers
  import opened Text
  import opened Seqs

  /** A member of the chat server: id, user name and optional nickname. */
  datatype Member = Member(id: string, name: string, nick: Option<string>)

  /** The lower-cased token names this member, by user name or by a
      (truthy) nickname. */
  predicate MemberMatches(m: Member, lowered: string) {
    lowered == Lower(m.name) || (Truthy(m.nick) && lowered == Lower(m.nick.value))
  }

  /** The caller id a token stands for. */
  function CallerIdFor(members: seq<Member>, author: string, token: string): (r: Option<string>)
    ensures token == "" ==> r == Some(author)
    ensures token != "" && Lower(token) == "all" ==> r == None
    ensures token != "" && Lower(token) == "mine" ==> r == Some(author)
    ensures token != "" && Lower(token) != "all" && Lower(token) != "mine" ==>
      if exists i :: 0 <= i < |members| && MemberMatches(members[i], Lower(token))
      then exists i :: 0 <= i < |members| && MemberMatches(members[i], Lower(token)) &&
                       (forall j :: 0 <= j < i ==> !MemberMatches(members[j], Lower(token))) &&
                       r == Some(members[i].id)
      else r == Some(author)
  {
    if token == "" then Some(author)
    else
      var lowered := Lower(token);
      if lowered == "all" then None
      else if lowered == "mine" then Some(author)
      else
        match FirstIndex(members, m => MemberMatches(m, lowered))
        case Some(i) => Some(members[i].id)
        case None => Some(author)
  }

  /** Only "all" (in any case) clears the caller filter; every other token
      resolves to the author or to a member. */
  lemma CallerIdNoneOnlyForAll(members: seq<Member>, author: string, token: string)
    ensures CallerIdFor(members, author, token).None? <==> token != "" && Lower(token) == "all"
    ensures CallerIdFor(members, author, token).Some? ==>
      CallerIdFor(members, author, token).value == author ||
      exists m :: m in members && CallerIdFor(members, author, token).value == m.id
  {
    var lowered := Lower(token);
    if token != "" && lowered != "all" && lowered != "mine" {
      match FirstIndex(members, m => MemberMatches(m, lowered))
      case Some(i) => assert members[i] in members;
      case None =>
    }
  }

  /** The member loop with its early returns. */
  method GetCallerIdFromString(members: seq<Member>, author: string, token: string) returns (r: Option<string>)
    ensures r == CallerIdFor(members, author, token)
  {
    if token == "" {
      return Some(author);
    }
    var lowered := Lower(token);
    if lowered == "all" {
      return None;
    } else if lowered == "mine" {
      return Some(author);
    }
    var i := 0;
    while i < |members|
      invariant 0 <= i <= |members|
      invariant forall j :: 0 <= j < i ==> !MemberMatches(members[j], lowered)
    {
      var member := members[i];
      if lowered == Lower(member.name) {
        return Some(member.id);
      }
      if Truthy(member.nick) && lowered == Lower(member.nick.value) {
        return Some(member.id);
      }
      i := i + 1;
    }
    return Some(author);
  }
}

=== FILE: coin_model.dfy ===
/** The coin catalog of callbot/models/models.py and its three-tier
    free-text resolver (`Coin.find_by_string`, `Coin.find_one_by_string`). */
module CoinModel {
  import opened Text
  import opened Seqs

  /** A row of the `coins` table. */
  datatype Coin = Coin(id: nat, name: string, symbol: string, cmcId: string)

  /** Tier 1: the symbol equals the query, ignoring case. */
  predicate SymbolIs(c: Coin, query: string) {
    Lower(c.symbol) == Lower(query)
  }

  /** Tier 2: the symbol starts with the query, ignoring case. */
  predicate SymbolStartsWith(c: Coin, query: string) {
    Lower(query) <= Lower(c.symbol)
  }

  /** Tier 3: the name or the external id contains the query, ignoring case. */
  predicate NameOrIdContains(c: Coin, query: string) {
    Contains(Lower(c.name), Lower(query)) || Contains(Lower(c.cmcId), Lower(query))
  }

  predicate HasSymbolMatch(catalog: seq<Coin>, query: string) {
    exists c :: c in catalog && SymbolIs(c, query)
  }

  predicate HasSymbolPrefixMatch(catalog: seq<Coin>, query: string) {
    exists c :: c in catalog && SymbolStartsWith(c, query)
  }

  /** An exact symbol match is also a prefix match, so tier 2 never hides a
      tier-1 coin. */
  lemma SymbolIsImpliesStartsWith(c: Coin, query: string)
    requires SymbolIs(c, query)
    ensures SymbolStartsWith(c, query)
  {
  }

  /** All coins of the first non-empty tier, in catalog order; empty when no
      tier matches. */
  function FindByString(catalog: seq<Coin>, query: string): (r: seq<Coin>)
    ensures |r| <= |catalog|
    ensures HasSymbolMatch(catalog, query) ==>
      forall c :: c in r <==> c in catalog && SymbolIs(c, query)
    ensures !HasSymbolMatch(catalog, query) && HasSymbolPrefixMatch(catalog, query) ==>
      forall c :: c in r <==> c in catalog && SymbolStartsWith(c, query)
    ensures !HasSymbolMatch(catalog, query) && !HasSymbolPrefixMatch(catalog, query) ==>
      forall c :: c in r <==> c in catalog && NameOrIdContains(c, query)
  {
    var exact := Select(catalog, c => SymbolIs(c, query));
    if |exact| > 0 then
      assert exact[0] in exact;
      exact
    else
      var prefix := Select(catalog, c => SymbolStartsWith(c, query));
      if |prefix| > 0 then
        assert prefix[0] in prefix;
        prefix
      else Select(catalog, c => NameOrIdContains(c, query))
  }

  /** The winning tier for `query`, as a predicate on coins. */
  predicate InWinningTier(catalog: seq<Coin>, query: string, c: Coin) {
    if HasSymbolMatch(catalog, query) then SymbolIs(c, query)
    else if HasSymbolPrefixMatch(catalog, query) then SymbolStartsWith(c, query)
    else NameOrIdContains(c, query)
  }

  /** Every coin of the winning tier is returned as often as it occurs in the
      catalog and nothing else is: ambiguity is never resolved silently. */
  lemma FindByStringCount(catalog: seq<Coin>, query: string, c: Coin)
    ensures multiset(FindByString(catalog, query))[c] ==
            if InWinningTier(catalog, query, c) then multiset(catalog)[c] else 0
  {
    var exact := Select(catalog, d => SymbolIs(d, query));
    var prefix := Select(catalog, d => SymbolStartsWith(d, query));
    SelectCount(catalog, d => SymbolIs(d, query), c);
    SelectCount(catalog, d => SymbolStartsWith(d, query), c);
    SelectCount(catalog, d => NameOrIdContains(d, query), c);
    if HasSymbolMatch(catalog, query) {
      var w :| w in catalog && SymbolIs(w, query);
      assert w in exact;
    } else if HasSymbolPrefixMatch(catalog, query) {
      var w :| w in catalog && SymbolStartsWith(w, query);
      assert w in prefix;
    }
  }

  /** What `find_one_by_string` hands back: a failure message or one coin. */
  datatype Resolution = NotFound | Found(coin: Coin) | Multiple(matches: seq<Coin>)

  /** Classification of the search result: none, exactly one, or several. */
  function FindOneByString(catalog: seq<Coin>, query: string): (r: Resolution)
    ensures r.NotFound? <==> FindByString(catalog, query) == []
    ensures r.Found? <==> |FindByString(catalog, query)| == 1
    ensures r.Found? ==> FindByString(catalog, query) == [r.coin]
    ensures r.Multiple? <==> |FindByString(catalog, query)| > 1
    ensures r.Multiple? ==> r.matches == FindByString(catalog, query)
  {
    var matches := FindByString(catalog, query);
    if |matches| == 0 then NotFound
    else if |matches| > 1 then Multiple(matches)
    else Found(matches[0])
  }

  /** A resolved coin is in the catalog and in the winning tier. */
  lemma FoundIsInWinningTier(catalog: seq<Coin>, query: string)
    requires FindOneByString(catalog, query).Found?
    ensures FindOneByString(catalog, query).coin in catalog
    ensures InWinningTier(catalog, query, FindOneByString(catalog, query).coin)
  {
    var c := FindOneByString(catalog, query).coin;
    FindByStringCount(catalog, query, c);
  }

  /** If exactly one catalog entry has the query as its symbol, that coin is
      found, whatever prefix, name or id matches other coins offer. */
  lemma UniqueSymbolMatchWins(catalog: seq<Coin>, query: string, c: Coin)
    requires multiset(catalog)[c] == 1 && SymbolIs(c, query)
    requires forall d :: d in catalog && SymbolIs(d, query) ==> d == c
    ensures FindOneByString(catalog, query) == Found(c)
  {
    var r := FindByString(catalog, query);
    assert c in catalog;
    forall d ensures multiset(r)[d] == multiset{c}[d] {
      FindByStringCount(catalog, query, d);
    }
    assert multiset(r) == multiset{c};
    SingletonMultiset(r, c);
  }

  /** If no symbol matches even as a prefix and exactly one entry has the
      query in its name or id, that coin is found. */
  lemma UniqueFallbackMatchWins(catalog: seq<Coin>, query: string, c: Coin)
    requires !HasSymbolMatch(catalog, query) && !HasSymbolPrefixMatch(catalog, query)
    requires multiset(catalog)[c] == 1 && NameOrIdContains(c, query)
    requires forall d :: d in catalog && NameOrIdContains(d, query) ==> d == c
    ensures FindOneByString(catalog, query) == Found(c)
  {
    var r := FindByString(catalog, query);
    assert c in catalog;
    forall d ensures multiset(r)[d] == multiset{c}[d] {
      FindByStringCount(catalog, query, d);
    }
    assert multiset(r) == multiset{c};
    SingletonMultiset(r, c);
  }

  lemma SingletonMultiset(s: seq<Coin>, c: Coin)
    requires multiset(s) == multiset{c}
    ensures s == [c]
  {
    assert |s| == |multiset(s)| == 1;
    assert s[0] in multiset(s);
  }

  const Bitcoin := Coin(1, "Bitcoin", "BTC", "bitcoin")
  const BitcoinX := Coin(2, "Bitcoin X", "BTCX", "bitcoin-x")

  /** In the example catalog the exact symbol "BTC" wins over the prefix
      match "BTCX" for the query "btc". */
  lemma ExactSymbolExample()
    ensures FindOneByString([Bitcoin, BitcoinX], "btc") == Found(Bitcoin)
  {
    assert Lower("BTC") == "btc" && Lower("btc") == "btc";
    assert Lower("BTCX") == "btcx";
    assert multiset([Bitcoin, BitcoinX]) == multiset{Bitcoin, BitcoinX};
    UniqueSymbolMatchWins([Bitcoin, BitcoinX], "btc", Bitcoin);
  }

  /** In the example catalog the query "bt" is ambiguous: both symbols start
      with it and both coins are reported. */
  lemma PrefixExample()
    ensures FindOneByString([Bitcoin, BitcoinX], "bt").Multiple?
    ensures multiset(FindOneByString([Bitcoin, BitcoinX], "bt").matches) == multiset{Bitcoin, BitcoinX}
  {
    var catalog := [Bitcoin, BitcoinX];
    assert Lower("BTC") == "btc" && Lower("BTCX") == "btcx" && Lower("bt") == "bt";
    assert !SymbolIs(Bitcoin, "bt") && !SymbolIs(BitcoinX, "bt");
    assert !HasSymbolMatch(catalog, "bt");
    assert SymbolStartsWith(Bitcoin, "bt") && SymbolStartsWith(BitcoinX, "bt");
    var r := FindByString(catalog, "bt");
    FindByStringCount(catalog, "bt", Bitcoin);
    FindByStringCount(catalog, "bt", BitcoinX);
    assert multiset(catalog) == multiset{Bitcoin, BitcoinX};
    assert multiset{Bitcoin, BitcoinX} <= multiset(r);
    assert |r| <= 2;
    assert multiset(r) == multiset{Bitcoin, BitcoinX};
  }
}

=== FILE: coin_table.dfy ===
/** The `coins` table of callbot/models/models.py and its bulk load
    (`Coin.load_all_coins`, `Coin.add_from_ticker`): insert-only by
    external id. */
module CoinTable {
  import opened Wrappers
  import opened Seqs
  import opened CoinModel
  import opened Ticker

  /** Some row of `coins` has external id `cmcId`. */
  predicate HasCmcId(coins: seq<Coin>, cmcId: string) {
    exists c :: c in coins && c.cmcId == cmcId
  }

  /** `Coin.get_by_cmc_id`: the first row with that external id. */
  function GetByCmcId(coins: seq<Coin>, cmcId: string): (r: Option<Coin>)
    ensures r.None? <==> !HasCmcId(coins, cmcId)
    ensures r.Some? ==> r.value in coins && r.value.cmcId == cmcId
    ensures r.Some? ==> exists i :: 0 <= i < |coins| && coins[i] == r.value &&
                                   forall j :: 0 <= j < i ==> coins[j].cmcId != cmcId
  {
    if coins == [] then None
    else if coins[0].cmcId == cmcId then Some(coins[0])
    else
      var r := GetByCmcId(coins[1..], cmcId);
      assert forall c :: c in coins[1..] ==> c in coins;
      assert HasCmcId(coins, cmcId) ==> HasCmcId(coins[1..], cmcId) by {
        if HasCmcId(coins, cmcId) {
          var c :| c in coins && c.cmcId == cmcId;
          assert c != coins[0];
        }
      }
      if r.Some? then
        assert exists i :: 0 <= i < |coins| && coins[i] == r.value &&
                           forall j :: 0 <= j < i ==> coins[j].cmcId != cmcId by {
          var i :| 0 <= i < |coins[1..]| && coins[1..][i] == r.value &&
                   forall j :: 0 <= j < i ==> coins[1..][j].cmcId != cmcId;
          assert coins[i + 1] == r.value;
          forall j | 0 <= j < i + 1 ensures coins[j].cmcId != cmcId {
            if j > 0 { assert coins[j] == coins[1..][j - 1]; }
          }
        }
        r
      else r
  }

  /** `Coin.get_by_name`: the first row named exactly `name`. */
  function GetByName(coins: seq<Coin>, name: string): (r: Option<Coin>)
    ensures r.None? <==> forall i :: 0 <= i < |coins| ==> coins[i].name != name
    ensures r.Some? ==> exists i :: 0 <= i < |coins| && coins[i] == r.value && r.value.name == name &&
                                   forall j :: 0 <= j < i ==> coins[j].name != name
  {
    match FirstIndex(coins, (c: Coin) => c.name == name)
    case None => None
    case Some(i) => Some(coins[i])
  }

  /** `Coin.get_or_add`: the row named `name` when there is one. Otherwise
      the source calls `add_from_name`, which raises because it reads `self`
      inside a class method; the transaction rolls back, so the result is
      `None` and no row is added. */
  function GetOrAdd(coins: seq<Coin>, name: string): (r: Option<Coin>)
    ensures r.None? <==> forall c :: c in coins ==> c.name != name
    ensures r.Some? ==> r.value in coins && r.value.name == name
    ensures r.Some? ==> forall i :: 0 <= i < |coins| && coins[i].name == name ==>
                                  exists j :: 0 <= j <= i && coins[j] == r.value
  {
    var r := GetByName(coins, name);
    assert r.None? ==> forall c :: c in coins ==> c.name != name by {
      if r.None? {
        forall c | c in coins ensures c.name != name {
          var i :| 0 <= i < |coins| && coins[i] == c;
        }
      }
    }
    r
  }

  /** No two rows share an external id. */
  ghost predicate DistinctCmcIds(coins: seq<Coin>) {
    forall i, j :: 0 <= i < j < |coins| ==> coins[i].cmcId != coins[j].cmcId
  }

  /** The row `add_from_ticker` creates: name, symbol and external id copied
      from the ticker record. */
  function CoinFromTicker(id: nat, t: TickerRecord): (c: Coin)
    ensures c.id == id && c.name == t.name && c.symbol == t.symbol && c.cmcId == t.id
  {
    Coin(id, t.name, t.symbol, t.id)
  }

  /** Rows are only appended, so a listed external id stays listed. */
  lemma HasCmcIdGrows(before: seq<Coin>, after: seq<Coin>)
    requires before <= after
    ensures forall k :: HasCmcId(before, k) ==> HasCmcId(after, k)
  {
    forall k | HasCmcId(before, k) ensures HasCmcId(after, k) {
      var d :| d in before && d.cmcId == k;
      var i :| 0 <= i < |before| && before[i] == d;
      assert after[i] == d;
    }
  }

  /** Appending rows with distinct external ids that no old row has keeps
      external ids distinct. */
  lemma DistinctAfterNewIds(start: seq<Coin>, coins: seq<Coin>)
    requires start <= coins && DistinctCmcIds(start)
    requires forall i :: |start| <= i < |coins| ==> !HasCmcId(start, coins[i].cmcId)
    requires forall i, j :: |start| <= i < j < |coins| ==> coins[i].cmcId != coins[j].cmcId
    ensures DistinctCmcIds(coins)
  {
    forall i, j | 0 <= i < j < |coins| ensures coins[i].cmcId != coins[j].cmcId {
      if j >= |start| && i < |start| {
        assert coins[i] == start[i];
        assert coins[i] in start;
      }
    }
  }

  class CoinTable {
    var coins: seq<Coin>

    /** Row ids are the auto-increment sequence 1, 2, 3, ... */
    ghost predicate Valid()
      reads this
    {
      forall i :: 0 <= i < |coins| ==> coins[i].id == i + 1
    }

    constructor()
      ensures Valid() && coins == []
    {
      coins := [];
    }

    /** `Coin.add_from_ticker`: insert one row built from a ticker record. */
    method AddFromTicker(t: TickerRecord) returns (c: Coin)
      requires Valid()
      modifies this
      ensures Valid()
      ensures c == CoinFromTicker(|old(coins)| + 1, t)
      ensures coins == old(coins) + [c]
    {
      c := CoinFromTicker(|coins| + 1, t);
      coins := coins + [c];
    }

    /** One pass of the `load_all_coins` loop: add the row for external id
        `k` unless one exists. */
    method AddIfMissing(t: Table, k: string)
      requires Valid() && k in t && KeyedById(t)
      modifies this
      ensures Valid()
      ensures HasCmcId(old(coins), k) ==> coins == old(coins)
      ensures !HasCmcId(old(coins), k) ==> coins == old(coins) + [CoinFromTicker(|coins|, t[k])]
      ensures HasCmcId(coins, k)
      ensures forall k' :: HasCmcId(old(coins), k') ==> HasCmcId(coins, k')
    {
      var existing := GetByCmcId(coins, k);
      if existing.None? {
        ghost var before := coins;
        var c := AddFromTicker(t[k]);
        assert c in coins;
        HasCmcIdGrows(before, coins);
      }
    }

    /** The loop of `load_all_coins` over a ticker table: every listed id
        without a row gets one; existing rows are never touched. */
    method AddMissing(t: Table)
      requires Valid() && KeyedById(t)
      modifies this
      ensures Valid()
      ensures old(coins) <= coins
      ensures forall k :: k in t ==> HasCmcId(coins, k)
      ensures forall i :: |old(coins)| <= i < |coins| ==>
        coins[i].cmcId in t && !HasCmcId(old(coins), coins[i].cmcId) &&
        coins[i] == CoinFromTicker(i + 1, t[coins[i].cmcId])
      ensures forall i, j :: |old(coins)| <= i < j < |coins| ==> coins[i].cmcId != coins[j].cmcId
      ensures DistinctCmcIds(old(coins)) ==> DistinctCmcIds(coins)
    {
      var pending := t.Keys;
      ghost var start := coins;
      while pending != {}
        invariant Valid()
        invariant pending <= t.Keys
        invariant start <= coins
        invariant forall k :: k in t.Keys - pending ==> HasCmcId(coins, k)
        invariant forall i :: |start| <= i < |coins| ==>
          coins[i].cmcId in t && coins[i].cmcId !in pending && !HasCmcId(start, coins[i].cmcId) &&
          coins[i] == CoinFromTicker(i + 1, t[coins[i].cmcId])
        invariant forall i, j :: |start| <= i < j < |coins| ==> coins[i].cmcId != coins[j].cmcId
        decreases pending
      {
        var k :| k in pending;
        AddIfMissing(t, k);
        pending := pending - {k};
      }
      if DistinctCmcIds(start) {
        DistinctAfterNewIds(start, coins);
      }
    }

    /** `Coin.load_all_coins`: read the (possibly refreshed) ticker and add
        the missing coins. `false` when the refresh raised, and then no row
        is added. */
    method LoadAllCoins(cache: TickerCache, now: real, fetched: Option<seq<TickerRecord>>)
      returns (ok: bool)
      requires Valid() && cache.Valid()
      modifies this, cache
      ensures Valid() && cache.Valid()
      ensures ok <==> !Stale(old(cache.ticker), old(cache.lastUpdate), now) || fetched.Some?
      ensures (cache.ticker, cache.lastUpdate) == Refreshed(old(cache.ticker), old(cache.lastUpdate), now, fetched)
      ensures !ok ==> coins == old(coins)
      ensures ok ==> old(coins) <= coins
      ensures ok ==> forall k :: k in cache.ticker ==> HasCmcId(coins, k)
      ensures ok ==> forall i :: |old(coins)| <= i < |coins| ==>
        coins[i].cmcId in cache.ticker && !HasCmcId(old(coins), coins[i].cmcId) &&
        coins[i] == CoinFromTicker(i + 1, cache.ticker[coins[i].cmcId])
      ensures DistinctCmcIds(old(coins)) ==> DistinctCmcIds(coins)
    {
      var snapshot := cache.GetGlobalTicker(now, fetched);
      if snapshot.None? {
        return false;
      }
      AddMissing(snapshot.value);
      ok := true;
    }
  }
}

=== FILE: commands.dfy ===
/** The decision logic of the chat commands in callbot/callbot.py:
    argument parsing (`Callbot.get_kwargs_from_args`) and the ledger
    effects of `make_call`, `show_call` and `close_call`. Message sending
    and embeds are not modelled. */
module Commands {
  import opened Wrappers
  import opened Text
  import opened CoinModel
  import opened Ticker
  import opened CoinTable
  import opened CallModel
  import opened CallLedger
  import opened Callers
  import opened Seqs

  /** A value of the keyword-argument dictionary. */
  datatype KwValue = Str(s: string) | NoneValue | Flag(b: bool)

  type Kwargs = map<string, KwValue>

  function OptionValue(o: Option<string>): (v: KwValue)
    ensures o.None? <==> v == NoneValue
    ensures o.Some? ==> v == Str(o.value)
  {
    match o
    case None => NoneValue
    case Some(s) => Str(s)
  }

  /** The dictionary before any override or token: prices in BTC, the
      author's calls, open calls. */
  function Defaults(author: string): (kw: Kwargs)
    ensures kw.Keys == {"prices_in", "caller_id", "closed"}
    ensures kw["prices_in"] == Str("btc") && kw["caller_id"] == Str(author) && kw["closed"] == Flag(false)
  {
    map["prices_in" := Str("btc"), "caller_id" := Str(author), "closed" := Flag(false)]
  }

  predicate UnitToken(arg: string) {
    Lower(arg) == "btc" || Lower(arg) == "usd"
  }

  predicate StateToken(arg: string) {
    Lower(arg) == "open" || Lower(arg) == "closed"
  }

  /** Any other token names a caller. */
  predicate CallerToken(arg: string) {
    !UnitToken(arg) && !StateToken(arg)
  }

  /** One pass of the loop body of `get_kwargs_from_args`. */
  function ApplyArg(kw: Kwargs, members: seq<Member>, author: string, arg: string): Kwargs {
    var lowered := Lower(arg);
    if lowered == "btc" || lowered == "usd" then kw["prices_in" := Str(lowered)]
    else if lowered == "open" then kw["closed" := Flag(false)]
    else if lowered == "closed" then kw["closed" := Flag(true)]
    else
      var callerId := CallerIdFor(members, author, arg);
      var withCaller := kw["caller_id" := OptionValue(callerId)];
      if Truthy(callerId) then withCaller else withCaller[arg := Str(arg)]
  }

  /** The tokens applied in order, left to right. */
  function FoldArgs(kw: Kwargs, members: seq<Member>, author: string, args: seq<string>): Kwargs {
    if args == [] then kw
    else ApplyArg(FoldArgs(kw, members, author, args[..|args| - 1]), members, author, args[|args| - 1])
  }

  /** `Callbot.get_kwargs_from_args`: defaults, then the overrides, then
      each token in turn. */
  method GetKwargsFromArgs(members: seq<Member>, author: string, overrides: Kwargs, args: seq<string>)
    returns (kw: Kwargs)
    ensures kw == FoldArgs(Defaults(author) + overrides, members, author, args)
  {
    kw := Defaults(author) + overrides;
    ghost var start := kw;
    for i := 0 to |args|
      invariant kw == FoldArgs(start, members, author, args[..i])
    {
      assert args[..i + 1][..i] == args[..i];
      var arg := args[i];
      var lowered := Lower(arg);
      if lowered == "btc" || lowered == "usd" {
        kw := kw["prices_in" := Str(lowered)];
        continue;
      }
      if lowered == "open" {
        kw := kw["closed" := Flag(false)];
        continue;
      } else if lowered == "closed" {
        kw := kw["closed" := Flag(true)];
        continue;
      }
      var callerId := GetCallerIdFromString(members, author, arg);
      kw := kw["caller_id" := OptionValue(callerId)];
      if Truthy(callerId) {
        continue;
      }
      kw := kw[arg := Str(arg)];
    }
    assert args[..|args|] == args;
  }

  /** Chat ids are never empty strings. */
  predicate IdsNonEmpty(members: seq<Member>, author: string) {
    author != "" && forall m :: m in members ==> m.id != ""
  }

  /** What one token does to the three known keys: a unit token sets the
      price unit, an open/closed token the state filter, any other token
      the caller filter; nothing else touches them. */
  lemma ApplyArgEffect(kw: Kwargs, members: seq<Member>, author: string, arg: string)
    requires IdsNonEmpty(members, author) && HasKnownKeys(kw)
    ensures var r := ApplyArg(kw, members, author, arg);
      && HasKnownKeys(r)
      && r["prices_in"] == (if UnitToken(arg) then Str(Lower(arg)) else kw["prices_in"])
      && r["closed"] == (if StateToken(arg) then Flag(Lower(arg) == "closed") else kw["closed"])
      && r["caller_id"] == (if CallerToken(arg) then OptionValue(CallerIdFor(members, author, arg))
                            else kw["caller_id"])
  {
    if CallerToken(arg) {
      CallerIdNoneOnlyForAll(members, author, arg);
      var callerId := CallerIdFor(members, author, arg);
      if !Truthy(callerId) {
        assert callerId.None?;
        assert |arg| == 3;
      }
    }
  }

  /** The three keys every parse starts with. */
  predicate HasKnownKeys(kw: Kwargs) {
    "prices_in" in kw && "caller_id" in kw && "closed" in kw
  }

  /** The last unit token decides `prices_in`; with none, it keeps its
      starting value. */
  lemma {:induction false} LastUnitTokenWins(start: Kwargs, members: seq<Member>, author: string, args: seq<string>)
    requires IdsNonEmpty(members, author) && HasKnownKeys(start)
    ensures HasKnownKeys(FoldArgs(start, members, author, args))
    ensures FoldArgs(start, members, author, args)["prices_in"] ==
      match LastIndex(args, UnitToken)
      case None => start["prices_in"]
      case Some(i) => Str(Lower(args[i]))
  {
    if args != [] {
      var init := args[..|args| - 1];
      LastUnitTokenWins(start, members, author, init);
      ApplyArgEffect(FoldArgs(start, members, author, init), members, author, args[|args| - 1]);
    }
  }

  /** The last "open"/"closed" token decides `closed`; with none, it keeps
      its starting value. */
  lemma {:induction false} LastStateTokenWins(start: Kwargs, members: seq<Member>, author: string, args: seq<string>)
    requires IdsNonEmpty(members, author) && HasKnownKeys(start)
    ensures HasKnownKeys(FoldArgs(start, members, author, args))
    ensures FoldArgs(start, members, author, args)["closed"] ==
      match LastIndex(args, StateToken)
      case None => start["closed"]
      case Some(i) => Flag(Lower(args[i]) == "closed")
  {
    if args != [] {
      var init := args[..|args| - 1];
      LastStateTokenWins(start, members, author, init);
      ApplyArgEffect(FoldArgs(start, members, author, init), members, author, args[|args| - 1]);
    }
  }

  /** The last caller token decides `caller_id`; with none, it keeps its
      starting value. */
  lemma {:induction false} LastCallerTokenWins(start: Kwargs, members: seq<Member>, author: string, args: seq<string>)
    requires IdsNonEmpty(members, author) && HasKnownKeys(start)
    ensures HasKnownKeys(FoldArgs(start, members, author, args))
    ensures FoldArgs(start, members, author, args)["caller_id"] ==
      match LastIndex(args, CallerToken)
      case None => start["caller_id"]
      case Some(i) => OptionValue(CallerIdFor(members, author, args[i]))
  {
    if args != [] {
      var init := args[..|args| - 1];
      LastCallerTokenWins(start, members, author, init);
      ApplyArgEffect(FoldArgs(start, members, author, init), members, author, args[|args| - 1]);
    }
  }

  /** The only keys a token adds are spellings of "all", each stored under
      itself. */
  lemma {:induction false} ExtraKeysAreAll(start: Kwargs, members: seq<Member>, author: string, args: seq<string>)
    requires IdsNonEmpty(members, author)
    ensures var kw := FoldArgs(start, members, author, args);
      forall k :: k in kw && k !in start && k != "prices_in" && k != "caller_id" && k != "closed" ==>
        Lower(k) == "all" && kw[k] == Str(k)
  {
    if args != [] {
      var init := args[..|args| - 1];
      ExtraKeysAreAll(start, members, author, init);
      var arg := args[|args| - 1];
      if CallerToken(arg) {
        CallerIdNoneOnlyForAll(members, author, arg);
      }
    }
  }

  /** `show LTC usd closed` by an author with id "a": dollar prices, closed
      calls, the author's own. */
  lemma ParseExample(members: seq<Member>)
    ensures FoldArgs(Defaults("a"), members, "a", ["USD", "closed"]) ==
      map["prices_in" := Str("usd"), "caller_id" := Str("a"), "closed" := Flag(true)]
  {
    var d := Defaults("a");
    assert Lower("USD") == "usd";
    assert Lower("closed") == "closed";
    assert ["USD", "closed"][..1] == ["USD"];
    assert ["USD"][..0] == [];
    assert FoldArgs(d, members, "a", []) == d;
    assert ApplyArg(d, members, "a", "USD") == d["prices_in" := Str("usd")];
    var afterUnit := FoldArgs(d, members, "a", ["USD"]);
    assert afterUnit == d["prices_in" := Str("usd")];
    assert FoldArgs(d, members, "a", ["USD", "closed"]) == afterUnit["closed" := Flag(true)];
  }

  /** Why a command did nothing. */
  datatype CommandError =
    | NoMatch
    | Ambiguous(matches: seq<Coin>)
    | AlreadyOpen(index: nat)
    | NoOpenCall
    | TickerUnavailable
    | Price(error: PriceError)

  /** The reply for a query that did not resolve to one coin. */
  function ResolutionError(res: Resolution): (e: CommandError)
    requires !res.Found?
    ensures res.NotFound? ==> e == NoMatch
    ensures res.Multiple? ==> e == Ambiguous(res.matches)
  {
    if res.NotFound? then NoMatch else Ambiguous(res.matches)
  }

  /** `Callbot.make_call`: resolve the coin, refuse a second open call by
      the author on it, otherwise record a call at the current prices. */
  method MakeCall(table: CoinTable, ledger: Ledger, cache: TickerCache, coinString: string,
                  author: string, channelId: string, now: real, fetched: Option<seq<TickerRecord>>)
    returns (r: Result<Call, CommandError>)
    requires ledger.Valid() && cache.Valid()
    modifies ledger, cache
    ensures ledger.Valid() && cache.Valid()
    ensures OneOpenPerCoinCaller(old(ledger.calls)) ==> OneOpenPerCoinCaller(ledger.calls)
    ensures r.Err? ==> ledger.calls == old(ledger.calls)
    ensures !FindOneByString(table.coins, coinString).Found? ==>
      && r == Err(ResolutionError(FindOneByString(table.coins, coinString)))
      && cache.ticker == old(cache.ticker) && cache.lastUpdate == old(cache.lastUpdate)
    ensures FindOneByString(table.coins, coinString).Found? ==>
      var coin := FindOneByString(table.coins, coinString).coin;
      var existing := GetByCoinAndCaller(old(ledger.calls), coin, author);
      && (existing.Some? ==> && r == Err(AlreadyOpen(existing.value))
                             && cache.ticker == old(cache.ticker) && cache.lastUpdate == old(cache.lastUpdate))
      && (existing.None? ==>
            (cache.ticker, cache.lastUpdate) == Refreshed(old(cache.ticker), old(cache.lastUpdate), now, fetched))
      && (existing.None? ==>
            (r.Ok? <==> && (!Stale(old(cache.ticker), old(cache.lastUpdate), now) || fetched.Some?)
                        && CurrentPrices(cache.ticker, coin.cmcId).Some?))
      && (existing.None? && Stale(old(cache.ticker), old(cache.lastUpdate), now) && fetched.None? ==>
            r == Err(TickerUnavailable))
      && (r.Ok? ==> && existing.None?
                    && r.value == NewCall(|old(ledger.calls)| + 1, coin, channelId, author,
                                          CurrentPrices(cache.ticker, coin.cmcId).value, now)
                    && ledger.calls == old(ledger.calls) + [r.value])
  {
    var res := FindOneByString(table.coins, coinString);
    if !res.Found? {
      return Err(ResolutionError(res));
    }
    var existing := GetByCoinAndCaller(ledger.calls, res.coin, author);
    if existing.Some? {
      return Err(AlreadyOpen(existing.value));
    }
    var snapshot := cache.GetGlobalTicker(now, fetched);
    if snapshot.None? {
      return Err(TickerUnavailable);
    }
    ghost var before := ledger.calls;
    var made := ledger.Make(res.coin, channelId, author, snapshot.value, now);
    if made.Err? {
      return Err(Price(made.error));
    }
    r := Ok(made.value);
    forall i | 0 <= i < |before| && !before[i].closed && before[i].coin.id == res.coin.id
      ensures before[i].callerId != author
    {
      assert !OpenBy(res.coin, author, before[i]);
    }
  }

  /** `Coin.close_call_by_caller` on a resolved coin: close the author's
      first open call on it, if there is one, at the (possibly refreshed)
      ticker's prices. */
  method CloseOwnCall(ledger: Ledger, cache: TickerCache, coin: Coin, author: string,
                      now: real, fetched: Option<seq<TickerRecord>>)
    returns (r: Result<Call, CommandError>)
    requires ledger.Valid() && cache.Valid()
    modifies ledger, cache
    ensures ledger.Valid() && cache.Valid()
    ensures OneOpenPerCoinCaller(old(ledger.calls)) ==> OneOpenPerCoinCaller(ledger.calls)
    ensures |ledger.calls| == |old(ledger.calls)|
    ensures r.Err? ==> ledger.calls == old(ledger.calls)
    ensures forall j :: 0 <= j < |ledger.calls| && ledger.calls[j] != old(ledger.calls)[j] ==>
      OpenBy(coin, author, old(ledger.calls)[j])
    ensures var own := GetByCoinAndCaller(old(ledger.calls), coin, author);
      && (own.None? ==> && r == Err(NoOpenCall)
                        && cache.ticker == old(cache.ticker) && cache.lastUpdate == old(cache.lastUpdate))
      && (own.Some? ==>
            (cache.ticker, cache.lastUpdate) == Refreshed(old(cache.ticker), old(cache.lastUpdate), now, fetched))
      && (own.Some? && Stale(old(cache.ticker), old(cache.lastUpdate), now) && fetched.None? ==>
            r == Err(TickerUnavailable))
      && (own.Some? && (!Stale(old(cache.ticker), old(cache.lastUpdate), now) || fetched.Some?) ==>
            && (r.Ok? <==> CloseCall(old(ledger.calls)[own.value], cache.ticker).Ok?)
            && (r.Err? ==> r == Err(Price(CloseCall(old(ledger.calls)[own.value], cache.ticker).error))))
      && (r.Ok? ==> && own.Some?
                    && CloseCall(old(ledger.calls)[own.value], cache.ticker) == Ok(r.value)
                    && ledger.calls == old(ledger.calls)[own.value := r.value])
  {
    var own := GetByCoinAndCaller(ledger.calls, coin, author);
    if own.None? {
      return Err(NoOpenCall);
    }
    var snapshot := cache.GetGlobalTicker(now, fetched);
    if snapshot.None? {
      return Err(TickerUnavailable);
    }
    var closed := ledger.Close(own.value, snapshot.value);
    if closed.Err? {
      return Err(Price(closed.error));
    }
    r := Ok(closed.value);
  }

  /** `Callbot.close_call` with `Coin.close_call_by_caller`: resolve the
      coin and close the author's own open call on it, if there is one. */
  method CloseCallCommand(table: CoinTable, ledger: Ledger, cache: TickerCache, coinString: string,
                          author: string, now: real, fetched: Option<seq<TickerRecord>>)
    returns (r: Result<Call, CommandError>)
    requires ledger.Valid() && cache.Valid()
    modifies ledger, cache
    ensures ledger.Valid() && cache.Valid()
    ensures OneOpenPerCoinCaller(old(ledger.calls)) ==> OneOpenPerCoinCaller(ledger.calls)
    ensures |ledger.calls| == |old(ledger.calls)|
    ensures r.Err? ==> ledger.calls == old(ledger.calls)
    ensures forall j :: 0 <= j < |ledger.calls| && ledger.calls[j] != old(ledger.calls)[j] ==>
      && FindOneByString(table.coins, coinString).Found?
      && OpenBy(FindOneByString(table.coins, coinString).coin, author, old(ledger.calls)[j])
    ensures !FindOneByString(table.coins, coinString).Found? ==>
      && r == Err(ResolutionError(FindOneByString(table.coins, coinString)))
      && cache.ticker == old(cache.ticker) && cache.lastUpdate == old(cache.lastUpdate)
    ensures FindOneByString(table.coins, coinString).Found? ==>
      var coin := FindOneByString(table.coins, coinString).coin;
      var own := GetByCoinAndCaller(old(ledger.calls), coin, author);
      && (own.None? ==> && r == Err(NoOpenCall)
                        && cache.ticker == old(cache.ticker) && cache.lastUpdate == old(cache.lastUpdate))
      && (own.Some? ==>
            (cache.ticker, cache.lastUpdate) == Refreshed(old(cache.ticker), old(cache.lastUpdate), now, fetched))
      && (own.Some? && Stale(old(cache.ticker), old(cache.lastUpdate), now) && fetched.None? ==>
            r == Err(TickerUnavailable))
      && (own.Some? && (!Stale(old(cache.ticker), old(cache.lastUpdate), now) || fetched.Some?) ==>
            && (r.Ok? <==> CloseCall(old(ledger.calls)[own.value], cache.ticker).Ok?)
            && (r.Err? ==> r == Err(Price(CloseCall(old(ledger.calls)[own.value], cache.ticker).error))))
      && (r.Ok? ==> && own.Some?
                    && CloseCall(old(ledger.calls)[own.value], cache.ticker) == Ok(r.value)
                    && ledger.calls == old(ledger.calls)[own.value := r.value])
  {
    var res := FindOneByString(table.coins, coinString);
    if !res.Found? {
      return Err(ResolutionError(res));
    }
    r := CloseOwnCall(ledger, cache, res.coin, author, now, fetched);
  }

  /** What `show_call` would display. */
  datatype Shown =
    | Unresolved(error: CommandError)
    | CallerCall(call: Option<Call>)
    | CoinCalls(calls: seq<Call>)

  /** `Callbot.show_call` with `Coin.get_calls_embed`: with a truthy caller,
      that caller's open call on the coin; otherwise every open call on it. */
  function ShowCall(coins: seq<Coin>, calls: seq<Call>, coinString: string, callerId: Option<string>): (r: Shown)
    ensures !FindOneByString(coins, coinString).Found? ==>
      r == Unresolved(ResolutionError(FindOneByString(coins, coinString)))
    ensures FindOneByString(coins, coinString).Found? && Truthy(callerId) ==>
      r.CallerCall? &&
      (r.call.None? <==> forall c :: c in calls ==> !OpenBy(FindOneByString(coins, coinString).coin, callerId.value, c)) &&
      (r.call.Some? ==> r.call.value in calls && OpenBy(FindOneByString(coins, coinString).coin, callerId.value, r.call.value))
    ensures FindOneByString(coins, coinString).Found? && !Truthy(callerId) ==>
      r.CoinCalls? &&
      forall c :: c in r.calls <==> c in calls && c.coin.id == FindOneByString(coins, coinString).coin.id && !c.closed
  {
    var res := FindOneByString(coins, coinString);
    if !res.Found? then Unresolved(ResolutionError(res))
    else if Truthy(callerId) then
      match GetByCoinAndCaller(calls, res.coin, callerId.value)
      case None => CallerCall(None)
      case Some(i) => CallerCall(Some(calls[i]))
    else CoinCalls(OpenCalls(calls, res.coin))
  }
}

=== FILE: ledger.dfy ===
/** The `calls` table of callbot/models/models.py as an object the session
    adds to and updates in place: `Call.make` and `Call.close`. */
module CallLedger {
  import opened Wrappers
  import opened CoinModel
  import opened Ticker
  import opened CallModel

  /** The row `Call.make` adds: the coin's current prices as start prices,
      open, no final prices yet. */
  function NewCall(id: nat, coin: Coin, channelId: string, callerId: string,
                   prices: Prices, now: real): (c: Call)
    ensures c.id == id && c.coin == coin && c.channelId == channelId && c.callerId == callerId
    ensures c.startPriceBtc == prices.btc && c.startPriceUsd == prices.usd
    ensures !c.closed && c.timestampMade == now
    ensures c.finalPriceBtc.None? && c.totalPercentChangeBtc.None?
    ensures c.finalPriceUsd.None? && c.totalPercentChangeUsd.None?
  {
    Call(id, coin, channelId, callerId, prices.btc, prices.usd, None, None, None, None, false, now)
  }

  /** At most one open call per (coin, caller): the rule the command layer
      keeps. */
  ghost predicate OneOpenPerCoinCaller(calls: seq<Call>) {
    forall i, j ::
      0 <= i < j < |calls| && !calls[i].closed && !calls[j].closed && calls[i].coin.id == calls[j].coin.id
      ==> calls[i].callerId != calls[j].callerId
  }

  class Ledger {
    var calls: seq<Call>

    /** Ids follow insertion order, and every closed call is stamped. */
    ghost predicate Valid()
      reads this
    {
      && (forall i :: 0 <= i < |calls| ==> calls[i].id == i + 1)
      && (forall i :: 0 <= i < |calls| && calls[i].closed ==> Stamped(calls[i]))
    }

    constructor()
      ensures Valid() && calls == []
    {
      calls := [];
    }

    /** `Call.make`: record a call on `coin` at the coin's current prices.
        Reading a price that `float()` rejects raises, and nothing is added. */
    method Make(coin: Coin, channelId: string, callerId: string, t: Table, now: real)
      returns (r: Result<Call, PriceError>)
      requires Valid()
      modifies this
      ensures Valid()
      ensures r.Ok? <==> CurrentPrices(t, coin.cmcId).Some?
      ensures r.Ok? ==> r.value == NewCall(|old(calls)| + 1, coin, channelId, callerId,
                                           CurrentPrices(t, coin.cmcId).value, now)
      ensures r.Ok? ==> calls == old(calls) + [r.value]
      ensures r.Err? ==> calls == old(calls)
    {
      var prices := CurrentPrices(t, coin.cmcId);
      if prices.None? {
        return Err(UnreadablePrice);
      }
      var c := NewCall(|calls| + 1, coin, channelId, callerId, prices.value, now);
      calls := calls + [c];
      r := Ok(c);
    }

    /** `Call.close` on the call at position `i`: only that row changes, and
        on an error (the source raises, the transaction rolls back) none
        does. */
    method Close(i: nat, t: Table) returns (r: Result<Call, PriceError>)
      requires Valid() && i < |calls|
      modifies this
      ensures Valid()
      ensures r == CloseCall(old(calls)[i], t)
      ensures r.Ok? ==> calls == old(calls)[i := r.value]
      ensures r.Err? ==> calls == old(calls)
    {
      r := CloseCall(calls[i], t);
      if r.Ok? {
        calls := calls[i := r.value];
      }
    }
  }
}

=== FILE: priced_catalog.dfy ===
/** The second model file, callbot/models/call_models.py: coins that carry
    their own cached prices, a catalog sync that updates or inserts by name,
    markets, quick calls and the interactive call prompts. */
module PricedCatalog {
  import opened Wrappers
  import opened Seqs
  import opened CoinModel
  import opened Ticker

  /** A `coins` row of this schema. Prices are the parse result of the
      ticker's price strings: `None` where parsing failed. */
  datatype PricedCoin = PricedCoin(
    id: nat, name: string, symbol: string, cmcId: string,
    priceBtc: Option<real>, priceUsd: Option<real>)

  /** The searchable columns of a priced coin, as a row of the other schema. */
  function Identity(c: PricedCoin): Coin {
    Coin(c.id, c.name, c.symbol, c.cmcId)
  }

  function Identities(cs: seq<PricedCoin>): (r: seq<Coin>)
    ensures |r| == |cs|
    ensures forall i :: 0 <= i < |cs| ==> r[i] == Identity(cs[i])
  {
    if cs == [] then [] else [Identity(cs[0])] + Identities(cs[1..])
  }

  /** Filtering priced coins by a condition on their searchable columns
      gives the same rows as filtering the searchable columns. */
  lemma {:induction false} SelectIdentities(xs: seq<PricedCoin>, p: PricedCoin -> bool, q: Coin -> bool)
    requires forall c :: p(c) == q(Identity(c))
    ensures Identities(Select(xs, p)) == Select(Identities(xs), q)
  {
    if xs != [] {
      SelectIdentities(xs[1..], p, q);
      var ids := Identities(xs);
      assert ids[1..] == Identities(xs[1..]);
      assert Select(ids, q) == (if q(ids[0]) then [ids[0]] else []) + Select(ids[1..], q);
      if p(xs[0]) {
        assert Identities(Select(xs, p)) == [Identity(xs[0])] + Identities(Select(xs[1..], p));
      }
    }
  }

  /** `Coin.find_by_string` of this schema: the same three tiers as the
      other schema, over priced coins. */
  function FindByString(catalog: seq<PricedCoin>, query: string): (r: seq<PricedCoin>)
    ensures |r| <= |catalog|
    ensures forall c :: c in r ==> c in catalog
  {
    var exact := Select(catalog, (c: PricedCoin) => SymbolIs(Identity(c), query));
    if |exact| > 0 then exact
    else
      var prefix := Select(catalog, (c: PricedCoin) => SymbolStartsWith(Identity(c), query));
      if |prefix| > 0 then prefix
      else Select(catalog, (c: PricedCoin) => NameOrIdContains(Identity(c), query))
  }

  /** Both schemas resolve a query to the same rows, in the same order. */
  lemma SameTiersAsOtherSchema(catalog: seq<PricedCoin>, query: string)
    ensures Identities(FindByString(catalog, query)) == CoinModel.FindByString(Identities(catalog), query)
  {
    var ids := Identities(catalog);
    SelectIdentities(catalog, (c: PricedCoin) => SymbolIs(Identity(c), query), c => SymbolIs(c, query));
    SelectIdentities(catalog, (c: PricedCoin) => SymbolStartsWith(Identity(c), query), c => SymbolStartsWith(c, query));
    SelectIdentities(catalog, (c: PricedCoin) => NameOrIdContains(Identity(c), query), c => NameOrIdContains(c, query));
  }

  /** `Coin.get_by_name`: the position of the first row with exactly that
      name. */
  function GetByName(coins: seq<PricedCoin>, name: string): (r: Option<nat>)
    ensures r.None? <==> forall i :: 0 <= i < |coins| ==> coins[i].name != name
    ensures r.Some? ==> r.value < |coins| && coins[r.value].name == name
    ensures r.Some? ==> forall j :: 0 <= j < r.value ==> coins[j].name != name
  {
    FirstIndex(coins, (c: PricedCoin) => c.name == name)
  }

  /** The row `add_from_ticker` builds. */
  function FromTicker(id: nat, t: TickerRecord): PricedCoin {
    PricedCoin(id, t.name, t.symbol, t.id, t.priceBtc, t.priceUsd)
  }

  /** `Coin.update` with a ticker: both prices replaced by the parse result. */
  function WithPrices(c: PricedCoin, t: TickerRecord): PricedCoin {
    c.(priceBtc := t.priceBtc, priceUsd := t.priceUsd)
  }

  /** One pass of the `load_all_coins` loop: update the first row named
      like the record, or insert a new row. */
  function SyncOne(coins: seq<PricedCoin>, t: TickerRecord): (r: seq<PricedCoin>)
    ensures GetByName(coins, t.name).Some? ==> |r| == |coins|
    ensures GetByName(coins, t.name).Some? ==>
              && r[GetByName(coins, t.name).value] == WithPrices(coins[GetByName(coins, t.name).value], t)
              && forall i :: 0 <= i < |coins| && i != GetByName(coins, t.name).value ==> r[i] == coins[i]
    ensures GetByName(coins, t.name).None? ==> r == coins + [FromTicker(|coins| + 1, t)]
    ensures |coins| <= |r|
    ensures forall i :: 0 <= i < |coins| ==> Identity(r[i]) == Identity(coins[i])
    ensures forall i :: 0 <= i < |coins| && r[i] != coins[i] ==> coins[i].name == t.name
    ensures GetByName(r, t.name).Some?
    ensures r[GetByName(r, t.name).value].priceBtc == t.priceBtc
    ensures r[GetByName(r, t.name).value].priceUsd == t.priceUsd
  {
    match GetByName(coins, t.name)
    case Some(i) => coins[i := WithPrices(coins[i], t)]
    case None =>
      var r := coins + [FromTicker(|coins| + 1, t)];
      assert r[|coins|].name == t.name;
      r
  }

  /** The records processed in order, first to last. */
  function Sync(coins: seq<PricedCoin>, ts: seq<TickerRecord>): seq<PricedCoin> {
    if ts == [] then coins else SyncOne(Sync(coins, ts[..|ts| - 1]), ts[|ts| - 1])
  }

  /** Processing one more record is one more `SyncOne` pass. */
  lemma SyncSnoc(coins: seq<PricedCoin>, ts: seq<TickerRecord>, t: TickerRecord)
    ensures Sync(coins, ts + [t]) == SyncOne(Sync(coins, ts), t)
  {
    assert (ts + [t])[..|ts|] == ts;
  }

  /** Syncing one more record of a batch is one more `SyncOne` pass. */
  lemma SyncPrefix(coins: seq<PricedCoin>, batch: seq<TickerRecord>, k: nat)
    requires k < |batch|
    ensures Sync(coins, batch[..k + 1]) == SyncOne(Sync(coins, batch[..k]), batch[k])
  {
    assert batch[..k + 1] == batch[..k] + [batch[k]];
    SyncSnoc(coins, batch[..k], batch[k]);
  }

  /** The records `load_all_coins` processes: the first `count`, or all of
      them when `count` is 0 (falsy). */
  function Batch(ts: seq<TickerRecord>, count: nat): (r: seq<TickerRecord>)
    ensures count == 0 ==> r == ts
    ensures count > 0 ==> r == Take(ts, count)
  {
    if count == 0 then ts else Take(ts, count)
  }

  /** `b` keeps every row of `a`, with its searchable columns. */
  predicate KeepsRows(a: seq<PricedCoin>, b: seq<PricedCoin>) {
    |a| <= |b| && forall i :: 0 <= i < |a| ==> Identity(b[i]) == Identity(a[i])
  }

  /** A sync never removes a row nor changes a row's name, symbol or
      external id, and inserts at most one row per record. */
  lemma {:induction false} SyncKeepsRows(coins: seq<PricedCoin>, ts: seq<TickerRecord>)
    ensures KeepsRows(coins, Sync(coins, ts))
    ensures |Sync(coins, ts)| <= |coins| + |ts|
  {
    if ts != [] {
      SyncKeepsRows(coins, ts[..|ts| - 1]);
    }
  }

  /** A name with a row keeps having one. */
  lemma KnownNameStaysKnown(a: seq<PricedCoin>, b: seq<PricedCoin>, name: string)
    requires KeepsRows(a, b) && GetByName(a, name).Some?
    ensures GetByName(b, name).Some?
  {
    var i := GetByName(a, name).value;
    assert Identity(b[i]).name == Identity(a[i]).name;
  }

  /** After a sync, every processed record's name has a row. */
  lemma {:induction false} SyncCoversNames(coins: seq<PricedCoin>, ts: seq<TickerRecord>)
    ensures forall k :: 0 <= k < |ts| ==> GetByName(Sync(coins, ts), ts[k].name).Some?
  {
    if ts != [] {
      var init := ts[..|ts| - 1];
      var before := Sync(coins, init);
      SyncCoversNames(coins, init);
      forall k | 0 <= k < |ts| ensures GetByName(Sync(coins, ts), ts[k].name).Some? {
        if k < |ts| - 1 {
          assert ts[k] == init[k];
          KnownNameStaysKnown(before, Sync(coins, ts), ts[k].name);
        }
      }
    }
  }

  /** When every processed name already has a row, a sync inserts nothing. */
  lemma {:induction false} SyncWithKnownNamesInsertsNothing(coins: seq<PricedCoin>, ts: seq<TickerRecord>)
    requires forall k :: 0 <= k < |ts| ==> GetByName(coins, ts[k].name).Some?
    ensures |Sync(coins, ts)| == |coins|
  {
    if ts != [] {
      var init := ts[..|ts| - 1];
      SyncWithKnownNamesInsertsNothing(coins, init);
      SyncKeepsRows(coins, init);
      KnownNameStaysKnown(coins, Sync(coins, init), ts[|ts| - 1].name);
    }
  }

  /** A `markets` row. */
  datatype Market = Market(id: nat, name: string, url: string)

  /** The `filter(name == ...).first()` of `Market.get_or_add`: the
      position of the first market with that name. */
  function GetMarketByName(markets: seq<Market>, name: string): (r: Option<nat>)
    ensures r.None? <==> forall i :: 0 <= i < |markets| ==> markets[i].name != name
    ensures r.Some? ==> r.value < |markets| && markets[r.value].name == name
    ensures r.Some? ==> forall j :: 0 <= j < r.value ==> markets[j].name != name
  {
    FirstIndex(markets, (m: Market) => m.name == name)
  }

  /** `Market.get_or_add` on values: the new table and the market returned. */
  function AddMarket(markets: seq<Market>, name: string, url: string): (r: (seq<Market>, Market))
    ensures r.1.name == name && r.1 in r.0
    ensures markets <= r.0 && |r.0| <= |markets| + 1
    ensures GetMarketByName(markets, name).Some? ==>
              r == (markets, markets[GetMarketByName(markets, name).value])
    ensures GetMarketByName(markets, name).None? ==>
              r.0 == markets + [r.1] && r.1 == Market(|markets| + 1, name, url)
  {
    match GetMarketByName(markets, name)
    case Some(i) => (markets, markets[i])
    case None =>
      var m := Market(|markets| + 1, name, url);
      (markets + [m], m)
  }

  /** A second `get_or_add` with the same name, whatever its url, changes
      nothing and returns the same market. */
  lemma AddMarketIdempotent(markets: seq<Market>, name: string, url: string, url2: string)
    ensures var (after, m) := AddMarket(markets, name, url);
      AddMarket(after, name, url2) == (after, m)
  {
    var (after, m) := AddMarket(markets, name, url);
    if GetMarketByName(markets, name).None? {
      assert after[|markets|] == m;
      assert GetMarketByName(after, name) == Some(|markets|);
    }
  }

  /** A `calls` row created by `make_quick_call`; the other columns stay
      NULL. */
  datatype QuickCall = QuickCall(
    id: nat, coinId: nat, priceAtCallBtc: Option<real>, priceAtCallUsd: Option<real>,
    closed: bool, timestamp: real)

  /** `Call.get_all_open_calls` as written: its filter is the Python value
      `False`, so the query selects no row, whatever the table holds. */
  function GetAllOpenCallsAsWritten(calls: seq<QuickCall>): (r: seq<QuickCall>)
    ensures r == []
  {
    Select(calls, (c: QuickCall) => false)
  }

  /** The open calls, as the method's name promises. */
  function GetAllOpenCalls(calls: seq<QuickCall>): (r: seq<QuickCall>)
    ensures |r| <= |calls|
    ensures forall c :: c in r <==> c in calls && !c.closed
  {
    Select(calls, (c: QuickCall) => !c.closed)
  }

  /** In every table, each open call is missed by the query as written and
      found by the intended one; so the two differ exactly when the table
      holds an open call. */
  lemma OpenCallMissedAsWritten(calls: seq<QuickCall>)
    ensures forall c :: c in calls && !c.closed ==>
              c !in GetAllOpenCallsAsWritten(calls) && c in GetAllOpenCalls(calls)
    ensures GetAllOpenCallsAsWritten(calls) != GetAllOpenCalls(calls) <==>
              exists c :: c in calls && !c.closed
  {
    if exists c :: c in calls && !c.closed {
      var c :| c in calls && !c.closed;
      assert c in GetAllOpenCalls(calls);
    }
  }

  /** A prompt of the interactive call form. */
  datatype CallPrompt = CallPrompt(name: string, prompt: string, required: bool)

  const RequiredTag := "[Required] "

  /** `CallPrompt.__init__`: a required prompt is shown with the tag in
      front; the question itself always ends the shown prompt. */
  function MakeCallPrompt(name: string, prompt: string, required: bool): (p: CallPrompt)
    ensures p.name == name && p.required == required
    ensures |p.prompt| == |prompt| + (if required then |RequiredTag| else 0)
    ensures p.prompt[|p.prompt| - |prompt|..] == prompt
    ensures required ==> RequiredTag <= p.prompt
    ensures !required ==> p.prompt == prompt
  {
    CallPrompt(name, if required then RequiredTag + prompt else prompt, required)
  }

  /** `Call.PROMPTS`. */
  const Prompts: seq<CallPrompt> := [
    MakeCallPrompt("name", "Coin name: ", true),
    MakeCallPrompt("risk", "Risk: ", false),
    MakeCallPrompt("reward", "Reward: ", false)
  ]

  /** The call form asks for the coin name, the risk and the reward, in
      that order; only the coin name is required, and only its prompt
      carries the required tag. */
  lemma PromptsForm()
    ensures |Prompts| == 3
    ensures Prompts[0].name == "name" && Prompts[1].name == "risk" && Prompts[2].name == "reward"
    ensures forall i :: 0 <= i < |Prompts| ==> (Prompts[i].required <==> Prompts[i].name == "name")
    ensures Prompts[0].prompt == "[Required] Coin name: "
    ensures Prompts[1].prompt == "Risk: " && Prompts[2].prompt == "Reward: "
  {
    assert RequiredTag + "Coin name: " == "[Required] Coin name: ";
  }

  /** The database of this schema: coins, markets and calls. */
  class Database {
    var coins: seq<PricedCoin>
    var markets: seq<Market>
    var calls: seq<QuickCall>

    /** Row ids are the auto-increment sequences 1, 2, 3, ... */
    ghost predicate Valid()
      reads this
    {
      && (forall i :: 0 <= i < |coins| ==> coins[i].id == i + 1)
      && (forall i :: 0 <= i < |markets| ==> markets[i].id == i + 1)
      && (forall i :: 0 <= i < |calls| ==> calls[i].id == i + 1)
    }

    constructor()
      ensures Valid() && coins == [] && markets == [] && calls == []
    {
      coins := [];
      markets := [];
      calls := [];
    }

    /** `Coin.add_from_ticker`: insert a row copying name, symbol, external
        id and both parsed prices from the record. */
    method AddFromTicker(t: TickerRecord) returns (c: PricedCoin)
      requires Valid()
      modifies this`coins
      ensures Valid()
      ensures coins == old(coins) + [c] && c == FromTicker(|coins|, t)
      ensures c.id == |coins| && c.name == t.name && c.symbol == t.symbol && c.cmcId == t.id
      ensures c.priceBtc == t.priceBtc && c.priceUsd == t.priceUsd
    {
      c := FromTicker(|coins| + 1, t);
      coins := coins + [c];
    }

    /** `Coin.update` with a ticker record: both prices are replaced, an
        unparseable one by `None`; nothing else changes. */
    method Update(i: nat, t: TickerRecord)
      requires Valid() && i < |coins|
      modifies this`coins
      ensures Valid()
      ensures coins == old(coins)[i := WithPrices(old(coins)[i], t)]
      ensures |coins| == |old(coins)|
      ensures Identity(coins[i]) == Identity(old(coins)[i])
      ensures coins[i].priceBtc == t.priceBtc && coins[i].priceUsd == t.priceUsd
      ensures forall j :: 0 <= j < |coins| && j != i ==> coins[j] == old(coins)[j]
    {
      coins := coins[i := WithPrices(coins[i], t)];
    }

    /** `Coin.get_or_add` with `add_from_name`: the row with that name, or
        else the first record of the fetched list inserted; nothing when the
        fetch failed or returned an empty list. */
    method GetOrAdd(name: string, fetched: Option<seq<TickerRecord>>) returns (r: Option<PricedCoin>)
      requires Valid()
      modifies this`coins
      ensures Valid()
      ensures GetByName(old(coins), name).Some? ==>
        coins == old(coins) && r == Some(coins[GetByName(old(coins), name).value])
      ensures GetByName(old(coins), name).None? && (fetched.None? || fetched.value == []) ==>
        coins == old(coins) && r.None?
      ensures GetByName(old(coins), name).None? && fetched.Some? && fetched.value != [] ==>
        r.Some? && coins == old(coins) + [r.value] && r.value == FromTicker(|coins|, fetched.value[0])
    {
      var existing := GetByName(coins, name);
      if existing.Some? {
        return Some(coins[existing.value]);
      }
      if fetched.None? || fetched.value == [] {
        return None;
      }
      var c := AddFromTicker(fetched.value[0]);
      r := Some(c);
    }

    /** One pass of the `load_all_coins` loop: `Update` the first row named
        like the record, or `AddFromTicker` when there is none. */
    method SyncStep(t: TickerRecord)
      requires Valid()
      modifies this`coins
      ensures Valid()
      ensures coins == SyncOne(old(coins), t)
    {
      var existing := GetByName(coins, t.name);
      if existing.Some? {
        Update(existing.value, t);
      } else {
        var _ := AddFromTicker(t);
      }
    }

    /** `SyncStep` on record `k` of `batch` extends the sync of the
        records before it. */
    method SyncRecord(ghost start: seq<PricedCoin>, batch: seq<TickerRecord>, k: nat)
      requires Valid() && k < |batch| && coins == Sync(start, batch[..k])
      modifies this`coins
      ensures Valid()
      ensures coins == Sync(start, batch[..k + 1])
    {
      SyncPrefix(start, batch, k);
      SyncStep(batch[k]);
    }

    /** The `load_all_coins` loop: the records synced in order. */
    method SyncAll(batch: seq<TickerRecord>)
      requires Valid()
      modifies this`coins
      ensures Valid()
      ensures coins == Sync(old(coins), batch)
    {
      ghost var start := coins;
      for k := 0 to |batch|
        invariant Valid()
        invariant coins == Sync(start, batch[..k])
      {
        SyncRecord(start, batch, k);
      }
      assert batch[..|batch|] == batch;
    }

    /** `Coin.load_all_coins` without its market scraping: on a failed
        fetch nothing changes; otherwise the batch is synced in order. */
    method LoadAllCoins(fetched: Option<seq<TickerRecord>>, count: nat)
      requires Valid()
      modifies this`coins
      ensures Valid()
      ensures fetched.None? ==> coins == old(coins)
      ensures fetched.Some? ==> coins == Sync(old(coins), Batch(fetched.value, count))
    {
      if fetched.Some? {
        SyncAll(Batch(fetched.value, count));
      }
    }

    /** `Market.get_or_add`. */
    method MarketGetOrAdd(name: string, url: string) returns (m: Market)
      requires Valid()
      modifies this`markets
      ensures Valid()
      ensures (markets, m) == AddMarket(old(markets), name, url)
    {
      var existing := GetMarketByName(markets, name);
      if existing.Some? {
        return markets[existing.value];
      }
      m := Market(|markets| + 1, name, url);
      markets := markets + [m];
    }

    /** `Call.make_quick_call`: a new open call on the coin at the coin's
        cached prices, which may be `None`. */
    method MakeQuickCall(coin: PricedCoin, now: real) returns (c: QuickCall)
      requires Valid()
      modifies this`calls
      ensures Valid()
      ensures calls == old(calls) + [c]
      ensures c.coinId == coin.id && !c.closed && c.timestamp == now
      ensures c.priceAtCallBtc == coin.priceBtc && c.priceAtCallUsd == coin.priceUsd
    {
      c := QuickCall(|calls| + 1, coin.id, coin.priceBtc, coin.priceUsd, false, now);
      calls := calls + [c];
    }
  }
}

=== FILE: ranking.dfy ===
/** Descending ranking by an optional numeric key: the in-memory stand-in
    for Python's stable `sorted(..., key=..., reverse=True)` and for SQL
    `ORDER BY ... DESC`. A missing key (SQL NULL) ranks below every value. */
module Ranking {
  import opened Wrappers

  /** Key `a` may stand before key `b` in descending order. */
  predicate AtLeast(a: Option<real>, b: Option<real>) {
    b.None? || (a.Some? && a.value >= b.value)
  }

  lemma AtLeastTotal(a: Option<real>, b: Option<real>)
    ensures AtLeast(a, b) || AtLeast(b, a)
  {
  }

  lemma AtLeastTransitive(a: Option<real>, b: Option<real>, c: Option<real>)
    requires AtLeast(a, b) && AtLeast(b, c)
    ensures AtLeast(a, c)
  {
  }

  ghost predicate SortedDesc<T>(xs: seq<T>, key: T -> Option<real>) {
    forall i, j :: 0 <= i < j < |xs| ==> AtLeast(key(xs[i]), key(xs[j]))
  }

  /** A slice of a list ordered best first is ordered best first. */
  lemma SortedSlice<T>(xs: seq<T>, key: T -> Option<real>, i: nat, j: nat)
    requires SortedDesc(xs, key) && i <= j <= |xs|
    ensures SortedDesc(xs[i..j], key)
  {
    forall a, b | 0 <= a < b < j - i ensures AtLeast(key(xs[i..j][a]), key(xs[i..j][b])) {
      assert xs[i..j][a] == xs[i + a] && xs[i..j][b] == xs[i + b];
    }
  }

  /** Insert `x` before the first element it ranks at least as high as, so
      that it stays ahead of later elements with an equal key. */
  function Insert<T>(x: T, xs: seq<T>, key: T -> Option<real>): (r: seq<T>)
    requires SortedDesc(xs, key)
    ensures SortedDesc(r, key)
    ensures multiset(r) == multiset(xs) + multiset{x}
    ensures |r| == |xs| + 1
  {
    if xs == [] then [x]
    else if AtLeast(key(x), key(xs[0])) then
      InsertHead(x, xs, key);
      [x] + xs
    else
      var rest := Insert(x, xs[1..], key);
      assert xs == [xs[0]] + xs[1..];
      InsertBehind(x, xs, rest, key);
      [xs[0]] + rest
  }

  lemma InsertHead<T>(x: T, xs: seq<T>, key: T -> Option<real>)
    requires SortedDesc(xs, key) && xs != [] && AtLeast(key(x), key(xs[0]))
    ensures SortedDesc([x] + xs, key)
  {
    forall j | 0 <= j < |xs| ensures AtLeast(key(x), key(xs[j])) {
      if j > 0 { AtLeastTransitive(key(x), key(xs[0]), key(xs[j])); }
    }
    var s := [x] + xs;
    forall i, j | 0 <= i < j < |s| ensures AtLeast(key(s[i]), key(s[j])) {
      if i > 0 { assert s[i] == xs[i - 1] && s[j] == xs[j - 1]; }
    }
  }

  lemma InsertBehind<T>(x: T, xs: seq<T>, rest: seq<T>, key: T -> Option<real>)
    requires SortedDesc(xs, key) && xs != [] && !AtLeast(key(x), key(xs[0]))
    requires SortedDesc(rest, key) && multiset(rest) == multiset(xs[1..]) + multiset{x}
    ensures SortedDesc([xs[0]] + rest, key)
  {
    AtLeastTotal(key(x), key(xs[0]));
    forall j | 0 <= j < |rest| ensures AtLeast(key(xs[0]), key(rest[j])) {
      assert rest[j] in multiset(rest);
      if rest[j] != x {
        assert rest[j] in multiset(xs[1..]);
        var k :| 0 <= k < |xs[1..]| && xs[1..][k] == rest[j];
        assert xs[k + 1] == rest[j];
      }
    }
    var s := [xs[0]] + rest;
    forall i, j | 0 <= i < j < |s| ensures AtLeast(key(s[i]), key(s[j])) {
      if i > 0 { assert s[i] == rest[i - 1] && s[j] == rest[j - 1]; }
    }
  }

  /** Stable descending insertion sort: a permutation of `xs`, ordered by
      `key` from the highest down. */
  function SortDesc<T>(xs: seq<T>, key: T -> Option<real>): (r: seq<T>)
    ensures SortedDesc(r, key)
    ensures multiset(r) == multiset(xs)
    ensures |r| == |xs|
  {
    if xs == [] then []
    else
      assert xs == [xs[0]] + xs[1..];
      Insert(xs[0], SortDesc(xs[1..], key), key)
  }

  /** The first `n` of a descending list rank at least as high as every
      element left out: taking a prefix keeps the best. */
  lemma {:induction false} PrefixIsTop<T>(s: seq<T>, key: T -> Option<real>, n: nat, y: T)
    requires SortedDesc(s, key) && n <= |s|
    requires y in multiset(s) - multiset(s[..n])
    ensures forall i :: 0 <= i < n ==> AtLeast(key(s[i]), key(y))
  {
    assert s == s[..n] + s[n..];
    assert multiset(s) == multiset(s[..n]) + multiset(s[n..]);
    assert y in multiset(s[n..]);
    var k :| 0 <= k < |s[n..]| && s[n..][k] == y;
    assert s[n + k] == y;
  }
}

=== FILE: seqs.dfy ===
/** Order-preserving filtering of sequences: the in-memory stand-in for a
    database query with `filter(...)` clauses and no `order_by`. */
module Seqs {
  import opened Wrappers

  /** The elements of `xs` satisfying `p`, in their original order and with
      their multiplicity. */
  function Select<T(!new)>(xs: seq<T>, p: T -> bool): (r: seq<T>)
    ensures |r| <= |xs|
    ensures forall x :: x in r <==> x in xs && p(x)
    ensures (forall x :: x in xs ==> !p(x)) ==> r == []
  {
    if xs == [] then []
    else
      var rest := Select(xs[1..], p);
      assert xs == [xs[0]] + xs[1..];
      if p(xs[0]) then [xs[0]] + rest else rest
  }

  /** Each element keeps its multiplicity when it satisfies `p` and is
      dropped otherwise. */
  lemma {:induction false} SelectCount<T(!new)>(xs: seq<T>, p: T -> bool, x: T)
    ensures multiset(Select(xs, p))[x] == if p(x) then multiset(xs)[x] else 0
  {
    if xs != [] {
      SelectCount(xs[1..], p, x);
      assert xs == [xs[0]] + xs[1..];
    }
  }

  /** The position of the first element satisfying `p` (a query's
      `.first()`), or `None` when there is none. */
  function FirstIndex<T>(xs: seq<T>, p: T -> bool): (r: Option<nat>)
    ensures r.None? <==> forall i :: 0 <= i < |xs| ==> !p(xs[i])
    ensures r.Some? ==> r.value < |xs| && p(xs[r.value])
    ensures r.Some? ==> forall j :: 0 <= j < r.value ==> !p(xs[j])
  {
    if xs == [] then None
    else if p(xs[0]) then Some(0)
    else
      match FirstIndex(xs[1..], p)
      case None => None
      case Some(i) => Some(i + 1)
  }

  /** The position of the last element satisfying `p`, or `None` when
      there is none. */
  function LastIndex<T>(xs: seq<T>, p: T -> bool): (r: Option<nat>)
    ensures r.None? <==> forall i :: 0 <= i < |xs| ==> !p(xs[i])
    ensures r.Some? ==> r.value < |xs| && p(xs[r.value])
    ensures r.Some? ==> forall j :: r.value < j < |xs| ==> !p(xs[j])
  {
    if xs == [] then None
    else if p(xs[|xs| - 1]) then Some(|xs| - 1)
    else LastIndex(xs[..|xs| - 1], p)
  }

  /** The first `n` elements of `xs`, or all of them when there are fewer
      (Python's `xs[:n]` for a non-negative `n`). */
  function Take<T>(xs: seq<T>, n: nat): (r: seq<T>)
    ensures |r| == if n < |xs| then n else |xs|
    ensures r <= xs
  {
    if n < |xs| then xs[..n] else xs
  }
}

=== FILE: text.dfy ===
/** ASCII text helpers for the case-insensitive comparisons the database
    performs (`lower(...)` and `ilike`). */
module Text {

  function LowerChar(c: char): (r: char)
    ensures 'A' <= c <= 'Z' ==> r as int == c as int + 32
    ensures !('A' <= c <= 'Z') ==> r == c
  {
    if 'A' <= c <= 'Z' then (c as int + 32) as char else c
  }

  /** ASCII lower-casing of a whole string. */
  function Lower(s: string): (r: string)
    ensures |r| == |s|
    ensures forall i :: 0 <= i < |s| ==> r[i] == LowerChar(s[i])
  {
    seq(|s|, i requires 0 <= i < |s| => LowerChar(s[i]))
  }

  lemma LowerCharIdempotent(c: char)
    ensures LowerChar(LowerChar(c)) == LowerChar(c)
  {
  }

  /** Lower-casing twice is lower-casing once. */
  lemma LowerIdempotent(s: string)
    ensures Lower(Lower(s)) == Lower(s)
  {
    forall i | 0 <= i < |s|
      ensures Lower(Lower(s))[i] == Lower(s)[i]
    {
      LowerCharIdempotent(s[i]);
    }
  }

  /** `needle` occurs as a contiguous piece of `hay` (SQL `ilike '%needle%'`
      once both sides are lower-cased). */
  predicate Contains(hay: string, needle: string)
    decreases |hay|
  {
    needle <= hay || (|hay| > 0 && Contains(hay[1..], needle))
  }

  /** `needle` sits in `hay` starting at position `k`. */
  predicate OccursAt(hay: string, needle: string, k: nat)
  {
    k + |needle| <= |hay| && hay[k..k + |needle|] == needle
  }

  /** Every occurrence is found by `Contains`. */
  lemma {:induction false} OccursImpliesContains(hay: string, needle: string, k: nat)
    requires OccursAt(hay, needle, k)
    ensures Contains(hay, needle)
    decreases k
  {
    if k == 0 {
      assert hay[..|needle|] == needle;
    } else {
      assert hay[1..][k - 1..k - 1 + |needle|] == hay[k..k + |needle|];
      OccursImpliesContains(hay[1..], needle, k - 1);
    }
  }

  /** `Contains` only succeeds at a real occurrence, which it returns. */
  lemma {:induction false} ContainsHasOccurrence(hay: string, needle: string) returns (k: nat)
    requires Contains(hay, needle)
    ensures OccursAt(hay, needle, k)
    decreases |hay|
  {
    if needle <= hay {
      k := 0;
      assert hay[..|needle|] == needle;
    } else {
      var j := ContainsHasOccurrence(hay[1..], needle);
      k := j + 1;
      assert hay[1..][j..j + |needle|] == hay[k..k + |needle|];
    }
  }
}

=== FILE: ticker.dfy ===
/** The price ticker cache of callbot/models/models.py: the class-level
    `TICKER`, `TICKER_TTL` and `TICKER_LAST_UPDATE` of `Coin`, refreshed by
    `get_global_ticker` / `update_global_ticker`, and the current prices read
    from it. The market-data fetch and the clock are parameters. */
module Ticker {
  import opened Wrappers

  /** One record of the market-data feed. The prices are what `float()`
      makes of the listed fields: `None` where `float()` raises. */
  datatype TickerRecord = TickerRecord(
    id: string, name: string, symbol: string,
    priceBtc: Option<real>, priceUsd: Option<real>)

  /** The cached table: external coin id to its record. */
  type Table = map<string, TickerRecord>

  /** Seconds a cached table stays fresh. */
  const TickerTtl: real := 10.0

  /** Every entry is filed under its own record's id. */
  ghost predicate KeyedById(t: Table) {
    forall k :: k in t ==> t[k].id == k
  }

  /** The table built from a feed: each record filed under its id, a later
      record replacing an earlier one with the same id. */
  function KeyById(records: seq<TickerRecord>): (t: Table)
    ensures KeyedById(t)
    ensures t.Keys == set r | r in records :: r.id
  {
    if records == [] then map[]
    else
      var last := records[|records| - 1];
      var init := records[..|records| - 1];
      assert records == init + [last];
      KeyById(init)[last.id := last]
  }

  /** The record kept for an id is the last record carrying that id. */
  lemma {:induction false} KeyByIdKeepsLast(records: seq<TickerRecord>, i: nat)
    requires i < |records|
    requires forall j :: i < j < |records| ==> records[j].id != records[i].id
    ensures records[i].id in KeyById(records)
    ensures KeyById(records)[records[i].id] == records[i]
  {
    if i < |records| - 1 {
      var init := records[..|records| - 1];
      KeyByIdKeepsLast(init, i);
    }
  }

  /** The loop of `update_global_ticker` that files each record under its id. */
  method BuildTickerDict(records: seq<TickerRecord>) returns (t: Table)
    ensures t == KeyById(records)
  {
    t := map[];
    var i := 0;
    while i < |records|
      invariant 0 <= i <= |records|
      invariant t == KeyById(records[..i])
    {
      assert records[..i + 1][..i] == records[..i];
      t := t[records[i].id := records[i]];
      i := i + 1;
    }
    assert records[..|records|] == records;
  }

  /** The refresh rule of `get_global_ticker`: an empty table, or one older
      than the TTL (strictly), is stale. */
  predicate Stale(t: Table, lastUpdate: real, now: real) {
    |t| == 0 || now - lastUpdate > TickerTtl
  }

  /** The table and timestamp the cache holds after `get_global_ticker`:
      a fresh table stays as it was; a stale one is replaced by the keyed
      feed and stamped `now` when the fetch succeeds, and stays as it was
      when it fails. */
  function Refreshed(t: Table, lastUpdate: real, now: real, fetched: Option<seq<TickerRecord>>): (r: (Table, real))
    ensures KeyedById(t) ==> KeyedById(r.0)
    ensures r.1 == lastUpdate || r.1 == now
    ensures (!Stale(t, lastUpdate, now) || fetched.Some?) && |r.0| > 0 ==> !Stale(r.0, r.1, now)
    ensures Stale(t, lastUpdate, now) && fetched.None? ==> r == (t, lastUpdate)
  {
    if !Stale(t, lastUpdate, now) then (t, lastUpdate)
    else if fetched.Some? then (KeyById(fetched.value), now)
    else (t, lastUpdate)
  }

  /** A table fetched at time 0 is still fresh at 5 and at exactly 10
      seconds, and stale at 11. */
  lemma StalenessExample(t: Table)
    requires |t| > 0
    ensures !Stale(t, 0.0, 5.0) && !Stale(t, 0.0, 10.0) && Stale(t, 0.0, 11.0)
  {
  }

  /** A coin's current prices: both read from its ticker entry. */
  datatype Prices = Prices(btc: real, usd: real)

  /** `Coin.current_price_btc`: the ticker price for the coin's external id,
      `0.0` when the id is not listed, `None` where `float()` raises. */
  function CurrentPriceBtc(t: Table, cmcId: string): (r: Option<real>)
    ensures cmcId !in t ==> r == Some(0.0)
    ensures cmcId in t ==> r == t[cmcId].priceBtc
  {
    if cmcId in t then t[cmcId].priceBtc else Some(0.0)
  }

  /** `Coin.current_price_usd`, the same rule for the dollar price. */
  function CurrentPriceUsd(t: Table, cmcId: string): (r: Option<real>)
    ensures cmcId !in t ==> r == Some(0.0)
    ensures cmcId in t ==> r == t[cmcId].priceUsd
  {
    if cmcId in t then t[cmcId].priceUsd else Some(0.0)
  }

  /** `Coin.current_price`: both prices, or `None` when either read raises. */
  function CurrentPrices(t: Table, cmcId: string): (r: Option<Prices>)
    ensures r.Some? <==> CurrentPriceBtc(t, cmcId).Some? && CurrentPriceUsd(t, cmcId).Some?
    ensures r.Some? ==>
      r.value.btc == CurrentPriceBtc(t, cmcId).value && r.value.usd == CurrentPriceUsd(t, cmcId).value
  {
    match (CurrentPriceBtc(t, cmcId), CurrentPriceUsd(t, cmcId))
    case (Some(btc), Some(usd)) => Some(Prices(btc, usd))
    case _ => None
  }

  /** After a refresh from `records`, a coin's price is that of the last
      record listing its id, and `0.0` when no record lists it. */
  lemma PriceAfterRefresh(records: seq<TickerRecord>, cmcId: string)
    ensures (forall r :: r in records ==> r.id != cmcId) ==>
      CurrentPriceBtc(KeyById(records), cmcId) == Some(0.0) &&
      CurrentPriceUsd(KeyById(records), cmcId) == Some(0.0)
    ensures forall i :: 0 <= i < |records| && records[i].id == cmcId &&
                        (forall j :: i < j < |records| ==> records[j].id != cmcId) ==>
      CurrentPriceBtc(KeyById(records), cmcId) == records[i].priceBtc &&
      CurrentPriceUsd(KeyById(records), cmcId) == records[i].priceUsd
  {
    forall i | 0 <= i < |records| && records[i].id == cmcId &&
               (forall j :: i < j < |records| ==> records[j].id != cmcId)
      ensures CurrentPriceBtc(KeyById(records), cmcId) == records[i].priceBtc
      ensures CurrentPriceUsd(KeyById(records), cmcId) == records[i].priceUsd
    {
      KeyByIdKeepsLast(records, i);
    }
  }

  /** The process-wide ticker cache (class attributes of `Coin`). */
  class TickerCache {
    var ticker: Table
    var lastUpdate: real

    ghost predicate Valid()
      reads this
    {
      KeyedById(ticker)
    }

    /** The class attributes' initial values: `{}` and `0`. */
    constructor()
      ensures Valid() && ticker == map[] && lastUpdate == 0.0
    {
      ticker := map[];
      lastUpdate := 0.0;
    }

    /** `update_global_ticker`: on a successful fetch the table is rebuilt
        from the feed; a failed fetch reaches the undefined name `to_dict`,
        whose error leaves the table as it was. */
    method UpdateGlobalTicker(fetched: Option<seq<TickerRecord>>) returns (r: Option<Table>)
      requires Valid()
      modifies this`ticker
      ensures Valid()
      ensures fetched.None? ==> ticker == old(ticker) && r.None?
      ensures fetched.Some? ==> ticker == KeyById(fetched.value) && r == Some(ticker)
    {
      if fetched.None? {
        return None;
      }
      var t := BuildTickerDict(fetched.value);
      ticker := t;
      r := Some(ticker);
    }

    /** `get_global_ticker`: refresh only a stale table, stamping the clock;
        otherwise hand back the cached table untouched. `None` stands for
        the error a failed fetch raises. */
    method GetGlobalTicker(now: real, fetched: Option<seq<TickerRecord>>) returns (r: Option<Table>)
      requires Valid()
      modifies this
      ensures Valid()
      ensures !Stale(old(ticker), old(lastUpdate), now) ==>
        ticker == old(ticker) && lastUpdate == old(lastUpdate) && r == Some(ticker)
      ensures Stale(old(ticker), old(lastUpdate), now) && fetched.Some? ==>
        ticker == KeyById(fetched.value) && lastUpdate == now && r == Some(ticker)
      ensures Stale(old(ticker), old(lastUpdate), now) && fetched.None? ==>
        ticker == old(ticker) && lastUpdate == old(lastUpdate) && r.None?
      ensures (ticker, lastUpdate) == Refreshed(old(ticker), old(lastUpdate), now, fetched)
    {
      if Stale(ticker, lastUpdate, now) {
        r := UpdateGlobalTicker(fetched);
        if r.None? {
          return;
        }
        lastUpdate := now;
      } else {
        r := Some(ticker);
      }
    }
  }
}

=== FILE: utils.dfy ===
/** Arithmetic and display helpers of callbot/utils.py. */
module Utils {

  /** Emoji shown for a rise and for a fall. */
  const GreenArrowUp: string := "<:arup:361777443343958017>"
  const RedArrowDown: string := "<:ardn:361785982921736192>"

  /** Percent change from `start` to `end`. Python raises ZeroDivisionError
      when `start` is zero; callers in this model check for that case and
      turn it into an error result. */
  function PercentChange(start: real, end: real): (r: real)
    requires start != 0.0
    ensures r * start == (end - start) * 100.0
  {
    ((end - start) / start) * 100.0
  }

  /** The end price recovered from a start price and a percent change: the
      inverse of `PercentChange`. */
  function ApplyPercent(start: real, percent: real): (r: real)
    ensures start != 0.0 ==> PercentChange(start, r) == percent
  {
    start + start * percent / 100.0
  }

  /** Percent change and its inverse round-trip. */
  lemma PercentChangeRoundTrip(start: real, end: real)
    requires start != 0.0
    ensures ApplyPercent(start, PercentChange(start, end)) == end
  {
    var p := PercentChange(start, end);
    assert p * start == (end - start) * 100.0;
    calc {
      ApplyPercent(start, p);
      start + (p * start) / 100.0;
      start + ((end - start) * 100.0) / 100.0;
      end;
    }
  }

  /** A price that did not move changed by zero percent. */
  lemma PercentChangeOfSamePrice(p: real)
    requires p != 0.0
    ensures PercentChange(p, p) == 0.0
  {
  }

  /** Opening at 1.0 and closing at 1.5 is a fifty percent gain. */
  lemma PercentChangeFiftyPercent()
    ensures PercentChange(1.0, 1.5) == 50.0
  {
  }

  /** For a positive start price the percent change has the sign of the
      price movement. */
  lemma PercentChangeSign(start: real, end: real)
    requires start > 0.0
    ensures PercentChange(start, end) > 0.0 <==> end > start
    ensures PercentChange(start, end) == 0.0 <==> end == start
    ensures PercentChange(start, end) < 0.0 <==> end < start
  {
    var r := PercentChange(start, end);
    assert r * start == (end - start) * 100.0;
    if r > 0.0 {
      assert r * start > 0.0;
    } else if r < 0.0 {
      assert r * start < 0.0;
    }
  }

  /** The arrow shown next to a percentage: up for a gain, nothing for no
      change, down for a loss. */
  function GetArrow(percentage: real): (r: string)
    ensures r == GreenArrowUp <==> percentage > 0.0
    ensures r == "" <==> percentage == 0.0
    ensures r == RedArrowDown <==> percentage < 0.0
  {
    if percentage > 0.0 then GreenArrowUp
    else if percentage == 0.0 then ""
    else RedArrowDown
  }

  /** The name of the logger `GetLoggerMixin._logger(name)` asks for: the
      class's `__loggername__`, extended by `.name` when a name is given. */
  function LoggerName(loggerName: string, name: string): (r: string)
    ensures loggerName <= r
    ensures name == "" <==> r == loggerName
    ensures name != "" ==> r[|loggerName|] == '.' && r[|loggerName| + 1..] == name
  {
    if name != "" then loggerName + "." + name else loggerName
  }
}

=== FILE: wrappers.dfy ===
/** Option and Result: the model's replacement for Python's `None` returns
    and for the exceptions the source lets escape. */
module Wrappers {

  datatype Option<+T> = None | Some(value: T)

  datatype Result<+T, +E> = Ok(value: T) | Err(error: E)

  /** Python truthiness of an optional string: neither `None` nor `''`. */
  predicate Truthy(o: Option<string>) {
    o.Some? && o.value != ""
  }
}
